=== FILE: README.md ===
# React state handlers, modelled in Dafny

The three tutorial apps (`states-and-effects`, `states-and-effects-more`,
`states-and-effects-even-more`) are almost entirely JSX and hook wiring. Spread through
them are small pure functions and event handlers that turn the current state into the
next one. This project models those pieces as pure Dafny functions over immutable
values (sequences of records, a map, small datatypes). Each handler becomes a function
from the old state to the value it hands to its state setter, and the project proves
what each one promises.

| file | module | what it models |
|---|---|---|
| `wrappers.dfy` | `Wrappers` | `Option` (for `null`) and `Result` (for a thrown `Error`) |
| `seqs.dfy` | `Seqs` | `Array.prototype.filter`, order-preserving subsequences, duplicate freedom |
| `text.dfy` | `Text` | ASCII `toLowerCase`, `indexOf`/`includes`, `split(" ")`, word starts; `join(" ")`, which the apps never call, only as the inverse of `split(" ")` |
| `tictactoe.dfy` | `TicTacToe` | `calculateWinner`, `Board.handleClick` and its status line, `Game.handlePlay` |
| `update_queue.dfy` | `UpdateQueue` | `getFinalState` with `increment`, and the `AppOne` test cases |
| `list_updates.dfy` | `ListUpdates` | the `TaskApp`, `ContactManager` and `TravelPlanOne` handlers, `getVisibleTodos` |
| `selection.dfy` | `Selection` | `MailClientOne.handleToggle` |
| `cart.dfy` | `ShoppingCart` | `handleIncreaseClick`, `handleDecreaseClick` |
| `indexed_updates.dfy` | `IndexedUpdates` | `CounterList.handleIncrementClick`, `ListTwo.handleClick`, `Gallery.handleClick` |
| `travel_plan.dfy` | `TravelPlan` | `TravelPlan.handleComplete` on the flat place table |
| `search.dfy` | `Search` | `filterItems`, `FilteredList`, the row list built by `ProductTable` |
| `router.dfy` | `Router` | the URL routing of `fetchData` |
| `username.dfy` | `UsernameForm` | the validity, error message, touched flag and submit rule of `UsernameForm` |

Modelling choices:

- A module-level counter read as `nextId++` or `thisNextId++` becomes a `freshId`
  parameter.
- `null` becomes `None`.
- A thrown `Error` becomes a `Failure`. The `TypeError` that `handleComplete` raises
  for a missing parent also becomes a `Failure`.
- Strings are `seq<char>`. Only ASCII case mapping is modelled.
- `Array.prototype.slice` clamps its bounds. `handlePlay` and the insertion in
  `ListTwo` are written with that clamping, so they need no preconditions.

## Model

| member | source | states |
|---|---|---|
| Seqs.Filter | states-and-effects/src/App.jsx:1364 | `filter` returns no more elements than it was given, each satisfying the predicate |
| Seqs.FilterCounts | states-and-effects/src/App.jsx:1364 | `filter` keeps every element satisfying the predicate as often as it occurs, and no other element |
| Seqs.FilterIsSubsequence | states-and-effects/src/App.jsx:1364 | `filter` deletes elements without reordering the rest |
| Seqs.FilterAppend | states-and-effects-more/src/App.jsx:134-136 | filtering distributes over concatenation |
| Seqs.FilterNoDups | states-and-effects/src/App.jsx:1364 | filtering a duplicate-free list leaves it duplicate-free |
| Seqs.FilterKeepsAllIff | states-and-effects/src/App.jsx:1155 | a filter returns a list as long as its input iff every element passes |
| Seqs.FilterSplitsLength | states-and-effects/src/App.jsx:1182-1184 | a predicate and its negation split the list: the two filtered lengths add up to its length |
| Seqs.FilterLengthCounts | states-and-effects/src/App.jsx:1155 | the length of `filter(...)` is the number of positions whose element passes |
| Text.Lower | states-and-effects-even-more/src/App.jsx:470 | `toLowerCase` keeps the length and lowers each upper-case ASCII letter by 32 code points, leaving the rest |
| Text.LowerFixedIff | states-and-effects-even-more/src/App.jsx:470 | a string equals its lower-case form iff it contains no upper-case letter |
| Text.IndexOf | states-and-effects-more/src/App.jsx:2185 | `indexOf` is -1 iff the pattern occurs nowhere, otherwise the first index where it occurs |
| Text.Split | states-and-effects-more/src/App.jsx:822 | `split(" ")` yields at least one piece and no piece contains a space |
| Text.JoinSplit | states-and-effects-more/src/App.jsx:822 | joining the pieces of `split(" ")` with a space gives back the string |
| Text.SplitJoin | states-and-effects-more/src/App.jsx:822 | splitting space-joined space-free words gives back the words |
| Text.SomeWordStartsWith | states-and-effects-more/src/App.jsx:822 | some word of `split(" ")` starts with `q` iff `q` has no space and the string reads `q` from a word start |
| Text.SplitLower | states-and-effects-more/src/App.jsx:822 | lower-casing before or after the split gives the same words |
| TicTacToe.CalculateWinner | states-and-effects-more/src/App.jsx:2081-2099 | no winner iff no line holds three equal marks; a winner is the mark filling all three squares of the first complete line |
| TicTacToe.HandleClick | states-and-effects-more/src/App.jsx:1858-1896 | a click is ignored iff the square is filled or someone has won; otherwise only square `i` changes, to the mover's mark |
| TicTacToe.Status | states-and-effects-more/src/App.jsx:1897-1906 | the status starts "Winner: " iff there is a winner and "Next player: " otherwise, ending with the winner's or the mover's mark, one character after the prefix |
| TicTacToe.StatusDeterminesOutcome | states-and-effects-more/src/App.jsx:1897-1906 | equal status lines mean the same winner, and with no winner the same player to move |
| TicTacToe.HandlePlay | states-and-effects-more/src/App.jsx:1993-2004 | the history keeps the boards up to the viewed move, gains the new board and views it; the player to move flips |
| TicTacToe.Play | states-and-effects-more/src/App.jsx:1858-1894 | a click on a filled square or a won board changes nothing; otherwise the history is cut after the viewed move and gains the viewed board with the mover's mark at the square, which becomes the viewed move |
| TicTacToe.PlayValid | states-and-effects-more/src/App.jsx:1981-2004 | a click keeps a history of nine-square boards with the viewed move inside it |
| TicTacToe.PlayAlternates | states-and-effects-more/src/App.jsx:1981 | from the empty board the players alternate, so `xIsNext` holds exactly when the viewed board has as many X marks as O marks |
| TicTacToe.InitialGameAlternates | states-and-effects-more/src/App.jsx:1976 | the initial history of one empty board satisfies the alternation invariant |
| TicTacToe.CountMark | states-and-effects-more/src/App.jsx:1871-1879 | marking an empty square adds one to that mark's count and leaves the other mark's count unchanged |
| UpdateQueue.GetFinalState | states-and-effects/src/App.jsx:1787-1797 | the loop folds the queue left to right and equals the closed form: the last replacement plus one per later updater, or the base plus one per entry |
| UpdateQueue.FinalStateClosedForm | states-and-effects/src/App.jsx:1787-1801 | the fold equals the closed form read off the last replacement |
| UpdateQueue.FinalStateAppend | states-and-effects/src/App.jsx:1789-1795 | folding a concatenation folds the second part over the result of the first |
| UpdateQueue.ReplaceForgetsPrefix | states-and-effects/src/App.jsx:1789-1795 | everything before a replacement, the base state included, has no effect on the result |
| UpdateQueue.AppOneTestCases | states-and-effects/src/App.jsx:1804-1820 | from base 0: `[1,1,1]` gives 1, three increments give 3, `[5,inc]` gives 6, `[5,inc,42]` gives 42 |
| ListUpdates.ReplaceById | states-and-effects-more/src/App.jsx:122-132 | the replacing `map` keeps the length and every id, replaces exactly the records with the new record's id, and keeps the others |
| ListUpdates.ReplaceByIdUndo | states-and-effects-more/src/App.jsx:1586-1595 | with unique ids, saving a record and then the record it replaced gives the list back |
| ListUpdates.RemoveById | states-and-effects-more/src/App.jsx:134-136 | the deleting `filter` removes every record with the id and nothing else, keeping order and multiplicity |
| ListUpdates.HandleAddTodo | states-and-effects-more/src/App.jsx:111-120 | one not-done todo with the fresh id and the title is appended after the unchanged todos |
| ListUpdates.HandleChangeTodo | states-and-effects-more/src/App.jsx:122-132 | the ids and order stay; the todos with `nextTodo`'s id become `nextTodo`, and the others stay |
| ListUpdates.HandleDeleteTodo | states-and-effects-more/src/App.jsx:134-136 | no todo with the id remains; the other todos stay in order with their multiplicity |
| ListUpdates.AddThenDeleteTodo | states-and-effects-more/src/App.jsx:111-136 | adding under a fresh id and then deleting that id gives the list back |
| ListUpdates.HandleSave | states-and-effects-more/src/App.jsx:1586-1595 | the contact with the saved id is replaced; ids, order and every other contact stay |
| ListUpdates.Packed | states-and-effects/src/App.jsx:1154-1155 | packed is the number of positions holding a packed item; it is at most total, and equals it iff every item is packed |
| ListUpdates.HandleAddItem | states-and-effects/src/App.jsx:1159-1168 | adding an item raises the total by one, leaves packed unchanged, and appends an unpacked item |
| ListUpdates.HandleChangeItem | states-and-effects/src/App.jsx:1170-1180 | the total and ids stay; only the items with the changed id are replaced |
| ListUpdates.HandleDeleteItem | states-and-effects/src/App.jsx:1182-1184 | the items with the id are removed, every other item stays in order, and the total drops by their number |
| ListUpdates.GetVisibleTodos | states-and-effects-more/src/App.jsx:4352-4357 | all todos, or exactly the uncompleted ones in order with their multiplicity |
| Selection.HandleToggle | states-and-effects/src/App.jsx:1354-1371 | the id becomes selected iff it was not; other ids keep their membership; deselecting removes every occurrence and keeps the order and the multiplicity of every other id, selecting appends |
| Selection.ToggleTwice | states-and-effects/src/App.jsx:1354-1371 | toggling the same id twice restores which ids are selected |
| Selection.ToggleTwiceUnselected | states-and-effects/src/App.jsx:1354-1371 | toggling an unselected id twice gives back the same list |
| Selection.ToggleNoDups | states-and-effects/src/App.jsx:1354-1371 | a duplicate-free selection stays duplicate-free |
| ShoppingCart.HandleIncreaseClick | states-and-effects/src/App.jsx:2677-2694 | the length, ids and names stay; each matching product's count grows by one, and the other counts stay |
| ShoppingCart.HandleDecreaseClick | states-and-effects/src/App.jsx:2696-2716 | the cart never grows, no matching product is left at zero, and the non-matching products stay in order |
| ShoppingCart.DecreaseSingle | states-and-effects/src/App.jsx:2696-2716 | with one matching product, a count above one drops by one, a count of one or zero removes it, and a negative count is left alone |
| ShoppingCart.IncreaseThenDecrease | states-and-effects/src/App.jsx:2677-2716 | increase then decrease restores the cart when every matching count is at least one |
| ShoppingCart.DecreaseThenIncrease | states-and-effects/src/App.jsx:2677-2716 | decrease then increase restores the cart when every matching count is above one |
| IndexedUpdates.HandleIncrementClick | states-and-effects/src/App.jsx:2446-2460 | the length stays, the counter at the index grows by one, and every other counter stays |
| IndexedUpdates.IncrementAddsOne | states-and-effects/src/App.jsx:2446-2460 | a click raises the sum of the counters by one when the index is in range, otherwise by nothing |
| IndexedUpdates.HandleInsertClick | states-and-effects/src/App.jsx:2492-2506 | the list grows by one, the new artist sits at `min(1, length)`, and removing it gives back the old list |
| IndexedUpdates.NextIndex | states-and-effects-more/src/App.jsx:1620-1630 | "Next" stays among the images; it wraps to the first exactly on the last image and otherwise advances by one |
| IndexedUpdates.GalleryCycles | states-and-effects-more/src/App.jsx:1620-1630 | as many clicks as there are images return to the image shown |
| IndexedUpdates.ClicksReachStart | states-and-effects-more/src/App.jsx:1620-1630 | from image `i`, `count - i` clicks reach the first image |
| TravelPlan.HandleComplete | states-and-effects/src/App.jsx:1051-1066 | fails iff the parent is missing; otherwise the keys and every other entry stay, and the parent's children lose exactly `childId`, keeping order and multiplicity |
| TravelPlan.CompleteIdempotent | states-and-effects/src/App.jsx:1051-1066 | completing the same child twice equals completing it once |
| Search.FilterItems | states-and-effects-more/src/App.jsx:814-824 | an order-preserving subsequence holding exactly the items with a name word starting with the lower-cased query; an empty query keeps all |
| Search.WordTestByPosition | states-and-effects-more/src/App.jsx:822 | the split-based word test equals "the query has no space and occurs in the lower-cased name at the start or after a space" |
| Search.FilteredList | states-and-effects-even-more/src/App.jsx:15-17 | an order-preserving subsequence holding exactly the items whose lower-cased text contains the lower-cased query; an empty query keeps all |
| Search.ProductTableRows | states-and-effects-more/src/App.jsx:2169-2217 | the rows are the passing products in order, each preceded by a category row exactly when its category differs from the previous passing product's; every category row introduces a product of that category; the table is empty exactly when no product passes and otherwise opens with the first passing product's category row |
| Search.PushProduct | states-and-effects-more/src/App.jsx:2196-2216 | one passing product extends the rows built so far to the table of the passing products including it: a category row is pushed exactly when its category differs from the last one, then its product row, and the last category becomes its own |
| Search.HeaderedOpensWithCategory | states-and-effects-more/src/App.jsx:2173-2208 | the table is empty exactly when no product passes, and otherwise its first row is the category row of the first passing product (the `null` start differs from every category) |
| Search.ProductsOfHeadered | states-and-effects-more/src/App.jsx:2213 | dropping the category rows gives back the passing products |
| Search.HeaderedIntroduces | states-and-effects-more/src/App.jsx:2196-2213 | every category row is followed by a product row of that category |
| Search.ShownProductsIsFilter | states-and-effects-more/src/App.jsx:2176-2194 | the products that survive both early returns are the ones `filter` keeps |
| Router.FetchData | states-and-effects-more/src/App.jsx:3404-3432 | "/planets" and only it selects the planet list; a places route comes only from a places URL of a valid id; other URLs fail with the places error when they start with "/planets/" and the generic error otherwise |
| Router.ErrorMessage | states-and-effects-more/src/App.jsx:3418-3431 | the thrown message names the expected URL shape for its error kind, then quotes the URL received, exactly |
| Router.ErrorMessageInjective | states-and-effects-more/src/App.jsx:3418-3431 | two errors with the same message are the same error: the text tells the kinds apart and gives back the URL |
| Router.PlacesUrlRoutes | states-and-effects-more/src/App.jsx:3412-3424 | a places URL, with or without the final "/", routes to its id when the id matches `[\w-]+` and fails with the places error otherwise |
| Router.MatchPlacesUrl | states-and-effects-more/src/App.jsx:3414-3421 | on a places URL the regular expression matches iff the id is non-empty and made of `[\w-]` characters, and then captures exactly that id |
| Router.NestedIdRejected | states-and-effects-more/src/App.jsx:3414 | "/planets/earth/moon/places" is rejected, since `/` is not an id character |
| UsernameForm.FormIsValid | states-and-effects-even-more/src/App.jsx:470-474 | valid iff the username has 3 to 10 characters and no upper-case letter |
| UsernameForm.DisplayErrorMessage | states-and-effects-even-more/src/App.jsx:476 | the error is displayed iff the field is touched and one of the three checks fails, that is, iff there is an error message |
| UsernameForm.HandleChange | states-and-effects-even-more/src/App.jsx:502-504 | typing replaces the username and leaves `touched` alone, so a touched field's alert follows the new value and an untouched one stays silent |
| UsernameForm.ErrorMessage | states-and-effects-even-more/src/App.jsx:484-491 | no message iff the form is valid; lower case beats too short, which beats too long |
| UsernameForm.Alert | states-and-effects-even-more/src/App.jsx:476-531 | an alert shows iff the field is touched and there is an error message, and its text is that error message |
| UsernameForm.HandleSubmit | states-and-effects-even-more/src/App.jsx:493-500 | submitting marks the field touched and hands over the username iff the form is valid |
| UsernameForm.HandleBlur | states-and-effects-even-more/src/App.jsx:506-508 | leaving the field marks it touched and keeps the username |
| UsernameForm.SubmitOrAlert | states-and-effects-even-more/src/App.jsx:476-500 | after a submit the username is handed over iff no alert is shown |
| UsernameForm.FreshFormSilent | states-and-effects-even-more/src/App.jsx:455-457 | an untouched fresh form shows no alert, whatever its initial username |
| UsernameForm.PatternImpliesValid | states-and-effects-even-more/src/App.jsx:521 | a username matching the input's `pattern="[a-z]{3,10}"` is valid |
| UsernameForm.ValidNotImpliesPattern | states-and-effects-even-more/src/App.jsx:470-474 | the converse fails: "ab1" is valid but does not match the pattern |

## Left out

- Rendering, JSX and the React hooks (`useState`, `useEffect`, `useRef`, batching, re-rendering) are React's machinery, not the apps' logic. The state setter is represented by the value a handler returns.
- The DOM code in the `main.jsx` files and the imperative form code are browser I/O.
- `fetchPlanets`, `fetchPlaces`, `delay`, `submitForm` and the other `setTimeout`/`Promise` code are simulated asynchronous I/O. `Router.FetchData` models only which request a URL selects.
- The `console.log` call and the `calls` counter in `getVisibleTodos` are side effects with no bearing on the result.
- Unicode: `toLowerCase` and `length` are modelled on ASCII text only.
- `Game.jumpTo` calls `setXIsNext`, which is not defined, so it cannot run as written. In the model, `xIsNext` is derived from `currentMove` alone.
- The `TaskApp` in `states-and-effects/src/App.jsx` nests its delete handler and its JSX inside `handleChangeTodo`, so it is not well formed. The `states-and-effects-more` version is the one modelled.
- `GameOne` calls an undefined `setGoldCard`, so it is not modelled.
- `useEffect` focusing the username input when the error appears is a DOM effect.
- `IndexedUpdates.NextIndex`: the image list itself is not modelled, only its length, passed as `imageCount`.
- `TravelPlan.HandleComplete`: like the source, it does not delete the completed place's own entry from the table, and it does not model the `TypeError` message.
- `ShoppingCart.HandleDecreaseClick`: the exact result is stated only for a cart with one product under the id. With several, the contract states that the rest of the cart stays and that no matching product is left at zero, but not each matching product's new count; `ShoppingCart.DecreaseSingle` pins the one-product case.
- `UsernameForm.HandleChange` models only the controlled input's new value, not the event object.
- `IndexedUpdates.HandleInsertClick`: the `setName("")` that clears the name input after an insertion is not modelled; the name is a parameter and only the new artist list is returned.
- Number width: JavaScript numbers are IEEE doubles, while ids, counts, counters and the update-queue numbers are modelled as unbounded integers. The two agree below 2^53; above it `x + 1` can round back to `x` in the source, so `ShoppingCart.IncreaseThenDecrease`, `IndexedUpdates.IncrementAddsOne` and `UpdateQueue.GetFinalState` hold of the source only below that bound.
- Loose equality: the `!=` in `handleToggle` compares numbers to numbers, so it is modelled as integer inequality.

=== FILE: cart.dfy ===
/** `ShoppingCart`: the increase and decrease buttons next to each product. */
module ShoppingCart {
  import opened Seqs

  datatype Product = Product(id: int, name: string, count: int)

  /** The `map` step of `handleIncreaseClick` for one product. */
  function IncreaseOne(p: Product, productId: int): Product {
    if p.id == productId then p.(count := p.count + 1) else p
  }

  /** `handleIncreaseClick(productId)`: the matching products gain one; nothing else changes. */
  function HandleIncreaseClick(products: seq<Product>, productId: int): (r: seq<Product>)
    ensures |r| == |products|
    ensures forall i :: 0 <= i < |r| ==> r[i].id == products[i].id && r[i].name == products[i].name
    ensures forall i :: 0 <= i < |r| ==> r[i].count == products[i].count + (if products[i].id == productId then 1 else 0)
  {
    seq(|products|, i requires 0 <= i < |products| => IncreaseOne(products[i], productId))
  }

  /** The `map` step of `handleDecreaseClick`: a matching product with a positive count loses one. */
  function DecreaseOne(p: Product, productId: int): Product {
    if p.id == productId && p.count > 0 then p.(count := p.count - 1) else p
  }

  /** The `filter` step of `handleDecreaseClick` keeps a product unless it matches and its
      count is zero. */
  predicate Kept(productId: int, p: Product) {
    !(p.id == productId && p.count == 0)
  }

  function DecreaseAll(products: seq<Product>, productId: int): (r: seq<Product>)
    ensures |r| == |products| && forall i :: 0 <= i < |r| ==> r[i] == DecreaseOne(products[i], productId)
  {
    seq(|products|, i requires 0 <= i < |products| => DecreaseOne(products[i], productId))
  }

  predicate Other(productId: int, p: Product) { p.id != productId }

  /** `handleDecreaseClick(productId)`: the list never grows, no matching product is left
      with a zero count, and the other products stay, in order. */
  function HandleDecreaseClick(products: seq<Product>, productId: int): (r: seq<Product>)
    ensures |r| <= |products|
    ensures forall i :: 0 <= i < |r| && r[i].id == productId ==> r[i].count != 0
    ensures Filter(r, p => Other(productId, p)) == Filter(products, p => Other(productId, p))
  {
    var d := DecreaseAll(products, productId);
    var r := Filter(d, p => Kept(productId, p));
    OthersUnchanged(products, productId);
    r
  }

  lemma {:induction false} OthersUnchanged(products: seq<Product>, productId: int)
    ensures Filter(Filter(DecreaseAll(products, productId), p => Kept(productId, p)), p => Other(productId, p))
         == Filter(products, p => Other(productId, p))
    decreases |products|
  {
    if products != [] {
      var d := DecreaseAll(products, productId);
      assert d[1..] == DecreaseAll(products[1..], productId);
      OthersUnchanged(products[1..], productId);
    }
  }

  /** The cart `handleDecreaseClick` should produce when index `k` holds the only matching
      product: a count above one drops by one, a count of one or zero removes the product,
      and a negative count is left alone. */
  function DecreasedAt(products: seq<Product>, k: nat): seq<Product>
    requires k < |products|
  {
    var c := products[k].count;
    if c > 1 then products[k := products[k].(count := c - 1)]
    else if c >= 0 then products[..k] + products[k + 1..]
    else products
  }

  /** With one matching product, `handleDecreaseClick` does exactly what `DecreasedAt` says. */
  lemma DecreaseSingle(products: seq<Product>, productId: int, k: nat)
    requires k < |products| && products[k].id == productId
    requires forall i :: 0 <= i < |products| && i != k ==> products[i].id != productId
    ensures HandleDecreaseClick(products, productId) == DecreasedAt(products, k)
  {
    var m := products[k];
    var x := DecreaseOne(m, productId);
    var a, b := products[..k], products[k + 1..];
    var mid := if Kept(productId, x) then [x] else [];
    assert HandleDecreaseClick(products, productId) == a + mid + b by {
      DecreaseSplit(products, productId, k);
      FilterSingleton(x, p => Kept(productId, p));
    }
    if m.count > 1 {
      Splice(products, k, m.(count := m.count - 1));
    } else if m.count >= 0 {
      assert a + mid == a;
    } else {
      Splice(products, k, m);
    }
  }

  /** Only the matching product is touched when it is the only one. */
  lemma DecreaseSplit(products: seq<Product>, productId: int, k: nat)
    requires k < |products| && products[k].id == productId
    requires forall i :: 0 <= i < |products| && i != k ==> products[i].id != productId
    ensures HandleDecreaseClick(products, productId)
         == products[..k] + Filter([DecreaseOne(products[k], productId)], p => Kept(productId, p)) + products[k + 1..]
  {
    var keep := p => Kept(productId, p);
    var d := DecreaseAll(products, productId);
    var a, m, b := products[..k], products[k], products[k + 1..];
    var x := DecreaseOne(m, productId);
    assert d == a + [x] + b;
    assert Filter(a, keep) == a by {
      FilterKeepsAll(a, keep);
    }
    assert Filter(b, keep) == b by {
      FilterKeepsAll(b, keep);
    }
    FilterAppend3(a, [x], b, keep);
  }

  /** Increasing then decreasing the same product restores the cart when every matching
      count was at least one. */
  lemma IncreaseThenDecrease(products: seq<Product>, productId: int)
    requires forall i :: 0 <= i < |products| && products[i].id == productId ==> products[i].count >= 1
    ensures HandleDecreaseClick(HandleIncreaseClick(products, productId), productId) == products
  {
    var inc := HandleIncreaseClick(products, productId);
    var d := DecreaseAll(inc, productId);
    assert d == products;
    FilterKeepsAll(d, p => Kept(productId, p));
  }

  /** Decreasing then increasing restores the cart when every matching count was above one. */
  lemma DecreaseThenIncrease(products: seq<Product>, productId: int)
    requires forall i :: 0 <= i < |products| && products[i].id == productId ==> products[i].count > 1
    ensures HandleIncreaseClick(HandleDecreaseClick(products, productId), productId) == products
  {
    var d := DecreaseAll(products, productId);
    FilterKeepsAll(d, p => Kept(productId, p));
  }
}

=== FILE: indexed_updates.dfy ===
/** Updates addressed by position: `CounterList.handleIncrementClick`, the insert button of
    `ListTwo`, and the "Next" button of `Gallery`. */
module IndexedUpdates {

  /** The sum of all counters. */
  function Sum(s: seq<int>): int {
    if s == [] then 0 else s[0] + Sum(s[1..])
  }

  /** `handleIncrementClick(index)`: `counters.map((c, i) => i === index ? c + 1 : c)`.
      An index outside the list changes nothing. */
  function HandleIncrementClick(counters: seq<int>, index: int): (r: seq<int>)
    ensures |r| == |counters|
    ensures forall i :: 0 <= i < |r| && i != index ==> r[i] == counters[i]
    ensures 0 <= index < |counters| ==> r[index] == counters[index] + 1
  {
    seq(|counters|, i requires 0 <= i < |counters| => if i == index then counters[i] + 1 else counters[i])
  }

  /** One click adds exactly one to the total over all counters. */
  lemma {:induction false} IncrementAddsOne(counters: seq<int>, index: int)
    ensures Sum(HandleIncrementClick(counters, index)) == Sum(counters) + (if 0 <= index < |counters| then 1 else 0)
    decreases |counters|
  {
    if counters != [] {
      var r := HandleIncrementClick(counters, index);
      assert r[1..] == HandleIncrementClick(counters[1..], index - 1);
      IncrementAddsOne(counters[1..], index - 1);
    }
  }

  datatype Artist = Artist(id: int, name: string)

  /** The insertion point of `ListTwo.handleClick` once `slice` clamps it to the list. */
  function InsertIndex(artists: seq<Artist>): nat {
    if |artists| < 1 then |artists| else 1
  }

  /** `ListTwo.handleClick()` with the module counter `thisNextId++` as `freshId`:
      `[...artists.slice(0, 1), newArtist, ...artists.slice(1)]`. */
  function HandleInsertClick(artists: seq<Artist>, freshId: int, name: string): (r: seq<Artist>)
    ensures |r| == |artists| + 1
    ensures r[InsertIndex(artists)] == Artist(freshId, name)
    ensures r[..InsertIndex(artists)] + r[InsertIndex(artists) + 1..] == artists
  {
    var k := InsertIndex(artists);
    var r := artists[..k] + [Artist(freshId, name)] + artists[k..];
    assert r[..k] == artists[..k] && r[k + 1..] == artists[k..];
    r
  }

  /** `Gallery.handleClick()`: advance to the next image, wrapping to the first after the last. */
  function NextIndex(index: int, imageCount: nat): (r: int)
    ensures 0 <= index < imageCount ==> 0 <= r < imageCount
    ensures r != 0 ==> r == index + 1
    ensures 0 <= index < imageCount ==> (r == 0 <==> index == imageCount - 1)
  {
    if index < imageCount - 1 then index + 1 else 0
  }

  /** The index after `k` clicks of "Next". */
  function Clicks(index: int, imageCount: nat, k: nat): int
    decreases k
  {
    if k == 0 then index else Clicks(NextIndex(index, imageCount), imageCount, k - 1)
  }

  /** From image `index`, `imageCount - index` clicks reach the first image. */
  lemma {:induction false} ClicksReachStart(index: nat, imageCount: nat)
    requires index < imageCount
    ensures Clicks(index, imageCount, imageCount - index) == 0
    decreases imageCount - index
  {
    if index < imageCount - 1 {
      ClicksReachStart(index + 1, imageCount);
    }
  }

  /** From the first image, `k` clicks reach image `k` while `k` is in range. */
  lemma {:induction false} ClicksFromStart(imageCount: nat, k: nat)
    requires k < imageCount
    ensures Clicks(0, imageCount, k) == k
  {
    ClicksWalk(0, imageCount, k);
  }

  lemma {:induction false} ClicksWalk(index: nat, imageCount: nat, k: nat)
    requires index + k < imageCount
    ensures Clicks(index, imageCount, k) == index + k
    decreases k
  {
    if k > 0 {
      ClicksWalk(index + 1, imageCount, k - 1);
    }
  }

  lemma {:induction false} ClicksAdd(index: int, imageCount: nat, a: nat, b: nat)
    ensures Clicks(Clicks(index, imageCount, a), imageCount, b) == Clicks(index, imageCount, a + b)
    decreases a
  {
    if a > 0 {
      ClicksAdd(NextIndex(index, imageCount), imageCount, a - 1, b);
    }
  }

  /** The gallery is a cycle: `imageCount` clicks come back to the image shown. */
  lemma GalleryCycles(index: nat, imageCount: nat)
    requires index < imageCount
    ensures Clicks(index, imageCount, imageCount) == index
  {
    ClicksReachStart(index, imageCount);
    ClicksFromStart(imageCount, index);
    ClicksAdd(index, imageCount, imageCount - index, index);
  }
}

=== FILE: list_updates.dfy ===
/** Immutable updates of lists of records keyed by `id`, as the todo, contact and
    packing-list handlers write them with `map`, `filter` and spread. Each handler is a
    function from the old list to the list handed to the state setter. */
module ListUpdates {
  import opened Seqs

  /** `list.map(x => x.id === next.id ? next : x)`. */
  function ReplaceById<T>(s: seq<T>, idOf: T -> int, next: T): (r: seq<T>)
    ensures |r| == |s|
    ensures forall i :: 0 <= i < |s| && idOf(s[i]) == idOf(next) ==> r[i] == next
    ensures forall i :: 0 <= i < |s| && idOf(s[i]) != idOf(next) ==> r[i] == s[i]
    ensures forall i :: 0 <= i < |s| ==> idOf(r[i]) == idOf(s[i])
  {
    seq(|s|, i requires 0 <= i < |s| => if idOf(s[i]) == idOf(next) then next else s[i])
  }

  /** The ids of a list, in order. */
  function Ids<T>(s: seq<T>, idOf: T -> int): (r: seq<int>)
    ensures |r| == |s| && forall i :: 0 <= i < |s| ==> r[i] == idOf(s[i])
  {
    seq(|s|, i requires 0 <= i < |s| => idOf(s[i]))
  }

  /** Saving a record and then saving the record it replaced gives the list back, when
      ids are unique. */
  lemma ReplaceByIdUndo<T>(s: seq<T>, idOf: T -> int, i: nat, next: T)
    requires NoDups(Ids(s, idOf)) && i < |s| && idOf(next) == idOf(s[i])
    ensures ReplaceById(ReplaceById(s, idOf, next), idOf, s[i]) == s
  {
    var r := ReplaceById(ReplaceById(s, idOf, next), idOf, s[i]);
    forall j | 0 <= j < |s| ensures r[j] == s[j] {
      if j != i {
        assert Ids(s, idOf)[j] != Ids(s, idOf)[i];
      }
    }
  }

  predicate HasId<T>(idOf: T -> int, id: int, x: T) {
    idOf(x) == id
  }

  /** `list.filter(x => x.id !== id)`: exactly the records with that id are gone; every other
      record stays, in order and as often as before. */
  function RemoveById<T(==,!new)>(s: seq<T>, idOf: T -> int, id: int): (r: seq<T>)
    ensures IsSubsequence(r, s)
    ensures forall i :: 0 <= i < |r| ==> idOf(r[i]) != id
    ensures forall x :: idOf(x) != id ==> multiset(r)[x] == multiset(s)[x]
    ensures |r| == |s| - |Filter(s, x => HasId(idOf, id, x))|
  {
    var r := Filter(s, x => !HasId(idOf, id, x));
    FilterCounts(s, x => !HasId(idOf, id, x));
    FilterIsSubsequence(s, x => !HasId(idOf, id, x));
    FilterSplitsLength(s, x => HasId(idOf, id, x), x => !HasId(idOf, id, x));
    r
  }

  /** A todo of `TaskApp`. */
  datatype Todo = Todo(id: int, title: string, done: bool)

  function TodoId(t: Todo): int { t.id }

  /** `TaskApp.handleAddTodo(title)`, with the module counter `nextId++` as `freshId`:
      one not-done todo appended after the others. */
  function HandleAddTodo(todos: seq<Todo>, freshId: int, title: string): (r: seq<Todo>)
    ensures |r| == |todos| + 1 && r[..|todos|] == todos
    ensures r[|todos|].id == freshId && r[|todos|].title == title && !r[|todos|].done
  {
    todos + [Todo(freshId, title, false)]
  }

  /** `TaskApp.handleChangeTodo(nextTodo)`: the todos with `nextTodo`'s id become `nextTodo`;
      the ids, order and every other todo stay. */
  function HandleChangeTodo(todos: seq<Todo>, nextTodo: Todo): (r: seq<Todo>)
    ensures Ids(r, TodoId) == Ids(todos, TodoId)
    ensures forall i :: 0 <= i < |todos| ==> r[i] == (if todos[i].id == nextTodo.id then nextTodo else todos[i])
  {
    ReplaceById(todos, TodoId, nextTodo)
  }

  /** `TaskApp.handleDeleteTodo(todoId)`. */
  function HandleDeleteTodo(todos: seq<Todo>, todoId: int): (r: seq<Todo>)
    ensures IsSubsequence(r, todos)
    ensures forall i :: 0 <= i < |r| ==> r[i].id != todoId
    ensures forall t: Todo :: t.id != todoId ==> multiset(r)[t] == multiset(todos)[t]
  {
    RemoveById(todos, TodoId, todoId)
  }

  /** Adding a todo under a fresh id and deleting that id gives the list back. */
  lemma AddThenDeleteTodo(todos: seq<Todo>, freshId: int, title: string)
    requires forall i :: 0 <= i < |todos| ==> todos[i].id != freshId
    ensures HandleDeleteTodo(HandleAddTodo(todos, freshId, title), freshId) == todos
  {
    var keep := x => !HasId(TodoId, freshId, x);
    var added := HandleAddTodo(todos, freshId, title);
    FilterAppend(todos, [Todo(freshId, title, false)], keep);
    FilterKeepsAll(todos, keep);
  }

  /** A contact of `ContactManager`. */
  datatype Contact = Contact(id: int, name: string, email: string)

  function ContactId(c: Contact): int { c.id }

  /** `ContactManager.handleSave(updatedData)`: the contact with that id is replaced, every
      other contact and the order stay. */
  function HandleSave(contacts: seq<Contact>, updatedData: Contact): (r: seq<Contact>)
    ensures Ids(r, ContactId) == Ids(contacts, ContactId)
    ensures forall i :: 0 <= i < |contacts| && contacts[i].id == updatedData.id ==> r[i] == updatedData
    ensures forall i :: 0 <= i < |contacts| && contacts[i].id != updatedData.id ==> r[i] == contacts[i]
  {
    ReplaceById(contacts, ContactId, updatedData)
  }

  /** A packing-list item of `TravelPlanOne`. */
  datatype PackItem = PackItem(id: int, title: string, packed: bool)

  function PackItemId(item: PackItem): int { item.id }

  predicate IsPacked(item: PackItem) { item.packed }

  /** `total`, derived from the items during rendering. */
  function Total(items: seq<PackItem>): nat {
    |items|
  }

  /** `packed`: the number of packed items. */
  function Packed(items: seq<PackItem>): (r: nat)
    ensures r <= Total(items)
    ensures r == Total(items) <==> forall i :: 0 <= i < |items| ==> items[i].packed
    ensures r == |set k | 0 <= k < |items| && items[k].packed|
  {
    var p := Filter(items, IsPacked);
    FilterKeepsAllIff(items, IsPacked);
    FilterLengthCounts(items, IsPacked);
    assert PassingIndices(items, IsPacked) == set k | 0 <= k < |items| && items[k].packed;
    |p|
  }

  /** `TravelPlanOne.handleAddItem(title)`: one more item, none more packed. */
  function HandleAddItem(items: seq<PackItem>, freshId: int, title: string): (r: seq<PackItem>)
    ensures Total(r) == Total(items) + 1
    ensures Packed(r) == Packed(items)
    ensures r[..|items|] == items && r[|items|] == PackItem(freshId, title, false)
  {
    var r := items + [PackItem(freshId, title, false)];
    FilterAppend(items, [PackItem(freshId, title, false)], IsPacked);
    r
  }

  /** `TravelPlanOne.handleChangeItem(nextItem)`. */
  function HandleChangeItem(items: seq<PackItem>, nextItem: PackItem): (r: seq<PackItem>)
    ensures Total(r) == Total(items)
    ensures Ids(r, PackItemId) == Ids(items, PackItemId)
    ensures forall i :: 0 <= i < |items| && items[i].id == nextItem.id ==> r[i] == nextItem
    ensures forall i :: 0 <= i < |items| && items[i].id != nextItem.id ==> r[i] == items[i]
  {
    ReplaceById(items, PackItemId, nextItem)
  }

  /** `TravelPlanOne.handleDeleteItem(itemId)`: the total drops by the number of items with
      that id. */
  function HandleDeleteItem(items: seq<PackItem>, itemId: int): (r: seq<PackItem>)
    ensures IsSubsequence(r, items)
    ensures forall i :: 0 <= i < |r| ==> r[i].id != itemId
    ensures forall x: PackItem :: x.id != itemId ==> multiset(r)[x] == multiset(items)[x]
    ensures Total(r) == Total(items) - |Filter(items, x => HasId(PackItemId, itemId, x))|
  {
    RemoveById(items, PackItemId, itemId)
  }

  /** A todo of the `TodoList` examples, made by `createTodo(text, completed = false)`. */
  datatype Task = Task(id: int, text: string, completed: bool)

  predicate IsActive(t: Task) { !t.completed }

  /** `getVisibleTodos(todos, showActive)`: all todos, or only the active ones in order. */
  function GetVisibleTodos(todos: seq<Task>, showActive: bool): (r: seq<Task>)
    ensures !showActive ==> r == todos
    ensures showActive ==> IsSubsequence(r, todos)
    ensures showActive ==> forall t :: t in r <==> t in todos && !t.completed
    ensures showActive ==> forall t: Task :: !t.completed ==> multiset(r)[t] == multiset(todos)[t]
  {
    FilterCounts(todos, IsActive);
    FilterIsSubsequence(todos, IsActive);
    if showActive then Filter(todos, IsActive) else todos
  }
}

=== FILE: router.dfy ===
/** `fetchData(url)`: the URL router in front of the simulated planet API. Only the routing
    decision is modelled; the delayed responses it returns are not. */
module Router {
  import opened Wrappers

  /** Which simulated request a URL selects. */
  datatype Route = PlanetList | PlaceList(planetId: string)

  /** The two `Error`s `fetchData` throws. */
  datatype FetchError = BadPlacesUrl(url: string) | UnknownUrl(url: string)

  const BadPlacesText: string := "Expected URL like \"/planets/earth/places\". Received: \""
  const UnknownText: string := "Expected URL like \"/planets\" or \"/planets/earth/places\". Received: \""
  const Closing: string := "\"."

  /** The message of the thrown `Error`: which URL shape was expected, then the URL received,
      quoted. */
  function ErrorMessage(e: FetchError): (r: string)
    ensures var lead := if e.BadPlacesUrl? then BadPlacesText else UnknownText;
      |r| == |lead| + |e.url| + |Closing| && r[..|lead|] == lead
      && r[|lead|..|lead| + |e.url|] == e.url && r[|r| - |Closing|..] == Closing
  {
    match e
    case BadPlacesUrl(url) => BadPlacesText + url + Closing
    case UnknownUrl(url) => UnknownText + url + Closing
  }

  /** The message tells the two errors apart and reports the URL exactly: different errors
      never share a message. */
  lemma ErrorMessageInjective(e1: FetchError, e2: FetchError)
    requires ErrorMessage(e1) == ErrorMessage(e2)
    ensures e1 == e2
  {
    assert BadPlacesText[27] == '/' && UnknownText[27] == '"';
    assert ErrorMessage(e1)[27] == if e1.BadPlacesUrl? then '/' else '"';
    assert ErrorMessage(e2)[27] == if e2.BadPlacesUrl? then '/' else '"';
  }

  /** A character of the regular-expression class `[\w-]` (ASCII letters, digits, `_`, `-`). */
  predicate IsIdChar(c: char) {
    'A' <= c <= 'Z' || 'a' <= c <= 'z' || '0' <= c <= '9' || c == '_' || c == '-'
  }

  /** A planet id matched by `([\w-]+)`. */
  predicate IsPlanetId(id: string) {
    |id| >= 1 && forall i :: 0 <= i < |id| ==> IsIdChar(id[i])
  }

  const Prefix: string := "/planets/"
  const Suffix: string := "/places"

  /** The URL of the places of planet `id`, with or without the optional final `/`. */
  function PlacesUrl(id: string, trailingSlash: bool): string {
    Prefix + id + Suffix + (if trailingSlash then "/" else "")
  }

  /** `s` ends with `t`. */
  predicate EndsWith(s: string, t: string) {
    |t| <= |s| && s[|s| - |t|..] == t
  }

  /** The match of `/^\/planets\/([\w-]+)\/places(\/)?$/`, yielding the captured id. The id
      class excludes `/`, so the capture is the text between the prefix and the suffix. */
  function MatchPlaces(url: string): (r: Option<string>)
    ensures r.Some? ==> IsPlanetId(r.value) && exists t :: url == PlacesUrl(r.value, t)
  {
    if !(Prefix <= url) then None
    else
      var rest := url[|Prefix|..];
      var t := EndsWith(rest, Suffix + "/");
      var tail := Suffix + (if t then "/" else "");
      if EndsWith(rest, tail) && IsPlanetId(rest[..|rest| - |tail|]) then
        var id := rest[..|rest| - |tail|];
        Reassemble(url, tail);
        assert url == PlacesUrl(id, t);
        Some(id)
      else None
  }

  /** A URL that starts with the prefix and ends with `tail` is the prefix, the text in
      between, and `tail`. */
  lemma Reassemble(url: string, tail: string)
    requires Prefix <= url && EndsWith(url[|Prefix|..], tail)
    ensures var rest := url[|Prefix|..]; url == Prefix + rest[..|rest| - |tail|] + tail
  {
    var rest := url[|Prefix|..];
    assert url == Prefix + rest;
    assert rest == rest[..|rest| - |tail|] + tail;
  }

  /** `fetchData(url)`: `"/planets"` selects the planet list; a URL that starts with
      `"/planets/"` must be the places URL of a planet id, or it is rejected with the
      first message; any other URL is rejected with the second. */
  function FetchData(url: string): (r: Result<Route, FetchError>)
    ensures r == Success(PlanetList) <==> url == "/planets"
    ensures r.Success? && r.value.PlaceList? ==>
      IsPlanetId(r.value.planetId) && (url == PlacesUrl(r.value.planetId, false) || url == PlacesUrl(r.value.planetId, true))
    ensures r.Failure? && Prefix <= url ==> r.error == BadPlacesUrl(url)
    ensures r.Failure? && !(Prefix <= url) ==> r.error == UnknownUrl(url)
  {
    if url == "/planets" then Success(PlanetList)
    else if Prefix <= url then
      match MatchPlaces(url)
      case Some(id) => Success(PlaceList(id))
      case None => Failure(BadPlacesUrl(url))
    else Failure(UnknownUrl(url))
  }

  /** A places URL is routed by its id alone: to that planet's places when the id is a valid
      planet id, and to the places error otherwise (an id holding `/` or `.` is not one). */
  lemma PlacesUrlRoutes(id: string, trailingSlash: bool)
    ensures FetchData(PlacesUrl(id, trailingSlash)) ==
      if IsPlanetId(id) then Success(PlaceList(id)) else Failure(BadPlacesUrl(PlacesUrl(id, trailingSlash)))
  {
    var url := PlacesUrl(id, trailingSlash);
    assert Prefix <= url;
    assert url != "/planets" by { assert |url| > |"/planets"|; }
    MatchPlacesUrl(id, trailingSlash);
  }

  /** The regular expression captures exactly the id of a places URL, when it is one. */
  lemma MatchPlacesUrl(id: string, trailingSlash: bool)
    ensures MatchPlaces(PlacesUrl(id, trailingSlash)) == if IsPlanetId(id) then Some(id) else None
  {
    var url := PlacesUrl(id, trailingSlash);
    assert Prefix <= url;
    var rest := url[|Prefix|..];
    var tail := Suffix + (if trailingSlash then "/" else "");
    if trailingSlash {
      CutWithSlash(id);
    } else {
      CutWithoutSlash(id);
    }
    assert EndsWith(rest, Suffix + "/") == trailingSlash;
    assert EndsWith(rest, tail) && rest[..|rest| - |tail|] == id;
  }

  /** After the prefix, a places URL with the final `/` ends with `/places/` and holds
      the id before it. */
  lemma CutWithSlash(id: string)
    ensures var rest := PlacesUrl(id, true)[|Prefix|..];
      EndsWith(rest, Suffix + "/") && rest[..|rest| - (|Suffix| + 1)] == id
  {
    var rest := PlacesUrl(id, true)[|Prefix|..];
    assert rest == id + (Suffix + "/");
  }

  /** After the prefix, a places URL without the final `/` ends with `/places`, not with
      `/places/`, and holds the id before it. */
  lemma CutWithoutSlash(id: string)
    ensures var rest := PlacesUrl(id, false)[|Prefix|..];
      !EndsWith(rest, Suffix + "/") && EndsWith(rest, Suffix) && rest[..|rest| - |Suffix|] == id
  {
    var rest := PlacesUrl(id, false)[|Prefix|..];
    assert rest == id + Suffix;
    assert rest[|rest| - 1] == 's';
  }

  /** A concrete rejected id: `earth/moon` contains a `/`. */
  lemma NestedIdRejected()
    ensures FetchData("/planets/earth/moon/places").Failure?
  {
    assert "/planets/earth/moon/places" == PlacesUrl("earth/moon", false);
    assert !IsIdChar("earth/moon"[5]);
    PlacesUrlRoutes("earth/moon", false);
  }
}

=== FILE: search.dfy ===
/** The search filters: `filterItems` (word-prefix search over food names), the
    `FilteredList` substring filter, and the row list `ProductTable` builds. Matching is
    case-insensitive through `toLowerCase` on ASCII. */
module Search {
  import opened Wrappers
  import opened Seqs
  import opened Text

  datatype Food = Food(id: int, name: string, description: string)

  /** Some space-separated word of `name`, lower-cased, starts with `q`. */
  predicate SomeWordStarts(name: string, q: string) {
    var words := Split(name);
    exists j :: 0 <= j < |words| && q <= Lower(words[j])
  }

  /** `filterItems(items, query)`: the items with a name word starting with the query,
      in order; an empty query keeps every item. */
  function FilterItems(items: seq<Food>, query: string): (r: seq<Food>)
    ensures IsSubsequence(r, items)
    ensures forall x :: x in r <==> x in items && SomeWordStarts(x.name, Lower(query))
    ensures forall x: Food :: SomeWordStarts(x.name, Lower(query)) ==> multiset(r)[x] == multiset(items)[x]
    ensures query == "" ==> r == items
  {
    var q := Lower(query);
    var r := Filter(items, (item: Food) => SomeWordStarts(item.name, q));
    FilterCounts(items, (item: Food) => SomeWordStarts(item.name, q));
    FilterIsSubsequence(items, (item: Food) => SomeWordStarts(item.name, q));
    if query == "" then
      assert forall i :: 0 <= i < |items| ==> SomeWordStarts(items[i].name, q) by {
        forall i | 0 <= i < |items| ensures SomeWordStarts(items[i].name, q) {
          assert q <= Lower(Split(items[i].name)[0]);
        }
      }
      FilterKeepsAll(items, (item: Food) => SomeWordStarts(item.name, q));
      r
    else r
  }

  /** The word test read off the lower-cased name by position: the query has no space and
      occurs in the name at the start or right after a space. */
  predicate MatchesAtWordStart(name: string, q: string) {
    ' ' !in q && exists k :: 0 <= k <= |name| && WordStart(name, k) && q <= Lower(name)[k..]
  }

  /** The split-based test of `filterItems` agrees with the positional one. */
  lemma WordTestByPosition(name: string, q: string)
    ensures SomeWordStarts(name, q) <==> MatchesAtWordStart(name, q)
  {
    var l := Lower(name);
    SplitLower(name);
    SomeWordStartsWith(l, q);
    assert SomeWordStarts(name, q) <==> SomeWordHasPrefix(Split(l), q);
    forall k | 0 <= k <= |name| ensures WordStart(l, k) <==> WordStart(name, k) {
      WordStartLower(name, k);
    }
    assert ReadsFromWordStart(l, q) <==> exists k :: 0 <= k <= |name| && WordStart(name, k) && q <= l[k..];
  }

  /** `FilteredList`: the items whose lower-cased text contains the lower-cased query, in
      order; an empty query keeps every item. */
  function FilteredList(items: seq<string>, query: string): (r: seq<string>)
    ensures IsSubsequence(r, items)
    ensures forall x :: x in r <==> x in items && Contains(Lower(x), Lower(query))
    ensures forall x :: Contains(Lower(x), Lower(query)) ==> multiset(r)[x] == multiset(items)[x]
    ensures query == "" ==> r == items
  {
    var keep := Containing(Lower(query));
    FilterCounts(items, keep);
    FilterIsSubsequence(items, keep);
    if query == "" then
      EmptyQueryKeepsAll(items);
      Filter(items, keep)
    else Filter(items, keep)
  }

  /** The `includes` test of `FilteredList` for the lower-cased query `q`. */
  function Containing(q: string): string -> bool {
    item => Contains(Lower(item), q)
  }

  lemma EmptyQueryKeepsAll(items: seq<string>)
    ensures Filter(items, Containing(Lower(""))) == items
  {
    var q := Lower("");
    assert q == "";
    forall i | 0 <= i < |items| ensures Containing(q)(items[i]) {
      assert OccursAt(Lower(items[i]), q, 0);
    }
    FilterKeepsAll(items, Containing(q));
  }

  datatype Product = Product(category: string, price: string, stocked: bool, name: string)

  datatype Row = CategoryRow(category: string) | ProductRow(product: Product)

  /** A product survives both early returns of the `forEach` body in `ProductTable`. */
  predicate Shown(p: Product, filterText: string, inStockOnly: bool) {
    IndexOf(Lower(p.name), Lower(filterText)) != -1 && !(inStockOnly && !p.stocked)
  }

  /** `Shown` as the predicate handed to `Filter`. */
  function ShownBy(filterText: string, inStockOnly: bool): Product -> bool {
    p => Shown(p, filterText, inStockOnly)
  }

  /** The header `ProductTable` pushes before a product of category `category` when the
      category pushed last was `last`. */
  function Header(last: Option<string>, category: string): seq<Row> {
    if last != Some(category) then [CategoryRow(category)] else []
  }

  /** The category of the last product in `ps`, if any. */
  function LastCategory(ps: seq<Product>): Option<string> {
    if ps == [] then None else Some(ps[|ps| - 1].category)
  }

  /** The row list for already filtered products: each product row, preceded by a category
      header when its category differs from the previous product's (or it is the first). */
  function Headered(ps: seq<Product>): seq<Row>
    decreases |ps|
  {
    if ps == [] then []
    else
      var init := ps[..|ps| - 1];
      var p := ps[|ps| - 1];
      Headered(init) + Header(LastCategory(init), p.category) + [ProductRow(p)]
  }

  /** Appending one product appends its (possible) header and its row. */
  lemma HeaderedSnoc(ps: seq<Product>, p: Product)
    ensures Headered(ps + [p]) == Headered(ps) + Header(LastCategory(ps), p.category) + [ProductRow(p)]
  {
    assert (ps + [p])[..|ps|] == ps;
  }

  /** The product rows of a row list, in order. */
  function ProductsOf(rows: seq<Row>): seq<Product> {
    if rows == [] then []
    else (if rows[0].ProductRow? then [rows[0].product] else []) + ProductsOf(rows[1..])
  }

  lemma {:induction false} ProductsOfAppend(a: seq<Row>, b: seq<Row>)
    ensures ProductsOf(a + b) == ProductsOf(a) + ProductsOf(b)
    decreases |a|
  {
    if a == [] {
      assert a + b == b;
    } else {
      var ab := a + b;
      var hd := if a[0].ProductRow? then [a[0].product] else [];
      assert ab[0] == a[0] && ab[1..] == a[1..] + b;
      ProductsOfAppend(a[1..], b);
      assert ProductsOf(ab) == hd + ProductsOf(ab[1..]);
      assert ProductsOf(a) == hd + ProductsOf(a[1..]);
    }
  }

  /** Headers interleave with the products but never reorder, add or drop one. */
  lemma {:induction false} ProductsOfHeadered(ps: seq<Product>)
    ensures ProductsOf(Headered(ps)) == ps
    decreases |ps|
  {
    if ps != [] {
      var init, p := ps[..|ps| - 1], ps[|ps| - 1];
      assert ps == init + [p];
      ProductsOfHeadered(init);
      HeaderedSnoc(init, p);
      ProductsOfSnoc(Headered(init), init, LastCategory(init), p);
    }
  }

  /** Rows whose products are `init`, followed by the header and the row of `p`, hold the
      products `init + [p]`. */
  lemma ProductsOfSnoc(a: seq<Row>, init: seq<Product>, last: Option<string>, p: Product)
    requires ProductsOf(a) == init
    ensures ProductsOf(a + Header(last, p.category) + [ProductRow(p)]) == init + [p]
  {
    var h := Header(last, p.category);
    ProductsOfAppend(a + h, [ProductRow(p)]);
    ProductsOfAppend(a, h);
    assert ProductsOf(h) == [] by { if h != [] { assert h[1..] == []; } }
    assert ProductsOf([ProductRow(p)]) == [p] by { assert [ProductRow(p)][1..] == []; }
  }

  /** Every header is immediately followed by a product row of that category. */
  predicate HeadersIntroduce(rows: seq<Row>) {
    forall j :: 0 <= j < |rows| && rows[j].CategoryRow? ==>
      j + 1 < |rows| && rows[j + 1].ProductRow? && rows[j + 1].product.category == rows[j].category
  }

  lemma {:induction false} HeaderedIntroduces(ps: seq<Product>)
    ensures HeadersIntroduce(Headered(ps))
    decreases |ps|
  {
    if ps != [] {
      var init, p := ps[..|ps| - 1], ps[|ps| - 1];
      var a := Headered(init);
      var h := Header(LastCategory(init), p.category);
      HeaderedIntroduces(init);
      var rows := Headered(ps);
      assert rows == a + h + [ProductRow(p)];
      forall j | 0 <= j < |rows| && rows[j].CategoryRow?
        ensures j + 1 < |rows| && rows[j + 1].ProductRow? && rows[j + 1].product.category == rows[j].category
      {
        if j < |a| {
          assert rows[j] == a[j];
          assert rows[j + 1] == a[j + 1];
        } else {
          assert h == [CategoryRow(p.category)] && j == |a|;
        }
      }
    }
  }

  /** The products that pass both filters, in order. */
  function ShownProducts(products: seq<Product>, filterText: string, inStockOnly: bool): seq<Product>
    decreases |products|
  {
    if products == [] then []
    else
      var init := ShownProducts(products[..|products| - 1], filterText, inStockOnly);
      var p := products[|products| - 1];
      if Shown(p, filterText, inStockOnly) then init + [p] else init
  }

  /** `ShownProducts` is `products.filter(Shown)`. */
  lemma {:induction false} ShownProductsIsFilter(products: seq<Product>, filterText: string, inStockOnly: bool)
    ensures ShownProducts(products, filterText, inStockOnly) == Filter(products, ShownBy(filterText, inStockOnly))
    decreases |products|
  {
    if products != [] {
      var n := |products| - 1;
      assert products == products[..n] + [products[n]];
      FilterSnoc(products[..n], products[n], ShownBy(filterText, inStockOnly));
      ShownProductsIsFilter(products[..n], filterText, inStockOnly);
    }
  }

  /** Taking one more product into account appends it to the shown products iff it passes. */
  lemma ShownProductsStep(products: seq<Product>, i: nat, filterText: string, inStockOnly: bool)
    requires i < |products|
    ensures ShownProducts(products[..i + 1], filterText, inStockOnly)
         == ShownProducts(products[..i], filterText, inStockOnly)
            + (if Shown(products[i], filterText, inStockOnly) then [products[i]] else [])
  {
    assert products[..i + 1][..i] == products[..i];
  }

  /** The row list is empty exactly when there are no products, and otherwise opens with the
      first product's category row. */
  lemma {:induction false} HeaderedOpensWithCategory(ps: seq<Product>)
    ensures ps != [] <==> Headered(ps) != []
    ensures ps != [] ==> Headered(ps)[0] == CategoryRow(ps[0].category)
    decreases |ps|
  {
    if ps != [] {
      var init, p := ps[..|ps| - 1], ps[|ps| - 1];
      var rows := Headered(ps);
      assert rows == Headered(init) + Header(LastCategory(init), p.category) + [ProductRow(p)];
      if init == [] {
        assert rows[0] == CategoryRow(p.category) && p == ps[0];
      } else {
        HeaderedOpensWithCategory(init);
        assert rows[0] == Headered(init)[0] && init[0] == ps[0];
      }
    }
  }

  /** The facts about a row list that `ProductTableRows` promises. */
  lemma HeaderedTable(ps: seq<Product>)
    ensures ProductsOf(Headered(ps)) == ps
    ensures HeadersIntroduce(Headered(ps))
    ensures (Headered(ps) == [] <==> ps == []) && (ps != [] ==> Headered(ps)[0] == CategoryRow(ps[0].category))
  {
    ProductsOfHeadered(ps);
    HeaderedIntroduces(ps);
    HeaderedOpensWithCategory(ps);
  }

  /** One iteration of the `ProductTable` loop for a passing product extends the rows built
      so far to the rows for one more product. */
  lemma HeaderedStep(ps: seq<Product>, p: Product, before: seq<Row>, after: seq<Row>)
    requires before == Headered(ps)
    requires after == (if Some(p.category) != LastCategory(ps) then before + [CategoryRow(p.category)] else before)
                      + [ProductRow(p)]
    ensures after == Headered(ps + [p])
  {
    HeaderedSnoc(ps, p);
  }

  /** The body of the `ProductTable` loop for a product that passes both filters: a category
      row when the category differs from the last one pushed, then the product row. */
  method PushProduct(rows: seq<Row>, lastCategory: Option<string>, product: Product, ghost shown: seq<Product>)
    returns (rows': seq<Row>, lastCategory': Option<string>)
    requires rows == Headered(shown) && lastCategory == LastCategory(shown)
    ensures rows' == Headered(shown + [product]) && lastCategory' == LastCategory(shown + [product])
  {
    rows' := rows;
    if Some(product.category) != lastCategory {
      rows' := rows' + [CategoryRow(product.category)];
    }
    rows' := rows' + [ProductRow(product)];
    HeaderedStep(shown, product, rows, rows');
    lastCategory' := Some(product.category);
  }

  /** The `ProductTable` loop: skip products that fail the filters, push a category row when
      the category changes from the last pushed product's, then the product row. */
  method ProductTableRows(products: seq<Product>, filterText: string, inStockOnly: bool) returns (rows: seq<Row>)
    ensures rows == Headered(Filter(products, ShownBy(filterText, inStockOnly)))
    ensures ProductsOf(rows) == Filter(products, ShownBy(filterText, inStockOnly))
    ensures HeadersIntroduce(rows)
    ensures var shown := Filter(products, ShownBy(filterText, inStockOnly));
      (rows == [] <==> shown == []) && (shown != [] ==> rows[0] == CategoryRow(shown[0].category))
  {
    rows := [];
    var lastCategory: Option<string> := None;
    ghost var shown: seq<Product> := [];
    var i := 0;
    while i < |products|
      invariant 0 <= i <= |products|
      invariant shown == ShownProducts(products[..i], filterText, inStockOnly)
      invariant rows == Headered(shown)
      invariant lastCategory == LastCategory(shown)
    {
      var product := products[i];
      ShownProductsStep(products, i, filterText, inStockOnly);
      if IndexOf(Lower(product.name), Lower(filterText)) == -1 {
      } else if inStockOnly && !product.stocked {
      } else {
        rows, lastCategory := PushProduct(rows, lastCategory, product, shown);
        shown := shown + [product];
      }
      i := i + 1;
    }
    assert products[..i] == products;
    ShownProductsIsFilter(products, filterText, inStockOnly);
    HeaderedTable(shown);
  }
}

=== FILE: selection.dfy ===
/** `MailClientOne.handleToggle`: selecting and deselecting a letter id. */
module Selection {
  import opened Seqs

  predicate IsNot(id: int, x: int) { x != id }

  /** Deselect `toggledId` (drop every occurrence) if it is selected, else append it. */
  function HandleToggle(selected: seq<int>, toggledId: int): (r: seq<int>)
    ensures toggledId in r <==> toggledId !in selected
    ensures forall x :: x != toggledId ==> (x in r <==> x in selected)
    ensures toggledId in selected ==> IsSubsequence(r, selected) && |r| < |selected|
    ensures toggledId in selected ==> forall x :: x != toggledId ==> multiset(r)[x] == multiset(selected)[x]
    ensures toggledId !in selected ==> r == selected + [toggledId]
  {
    if toggledId in selected then
      var r := Filter(selected, x => IsNot(toggledId, x));
      FilterCounts(selected, x => IsNot(toggledId, x));
      FilterIsSubsequence(selected, x => IsNot(toggledId, x));
      assert multiset(r)[toggledId] == 0 < multiset(selected)[toggledId];
      assert |r| != |selected| by {
        if |r| == |selected| {
          FilterKeepsAllIff(selected, x => IsNot(toggledId, x));
        }
      }
      r
    else selected + [toggledId]
  }

  /** Toggling an id twice restores which ids are selected. */
  lemma ToggleTwice(selected: seq<int>, id: int)
    ensures forall x :: x in HandleToggle(HandleToggle(selected, id), id) <==> x in selected
  {
  }

  /** Toggling an unselected id twice gives back exactly the same list. */
  lemma ToggleTwiceUnselected(selected: seq<int>, id: int)
    requires id !in selected
    ensures HandleToggle(HandleToggle(selected, id), id) == selected
  {
    var once := selected + [id];
    FilterAppend(selected, [id], x => IsNot(id, x));
    FilterKeepsAll(selected, x => IsNot(id, x));
  }

  /** A duplicate-free selection stays duplicate-free. */
  lemma ToggleNoDups(selected: seq<int>, id: int)
    requires NoDups(selected)
    ensures NoDups(HandleToggle(selected, id))
  {
    if id in selected {
      FilterNoDups(selected, x => IsNot(id, x));
    } else {
      var r := selected + [id];
      forall i, j | 0 <= i < j < |r| ensures r[i] != r[j] {
        if j == |selected| { assert r[i] == selected[i]; }
      }
    }
  }
}

=== FILE: seqs.dfy ===
/** Generic sequence operations used by the list handlers: `Array.prototype.filter`,
    order-preserving subsequences and duplicate freedom. */
module Seqs {

  /** `r` can be obtained from `s` by deleting elements, without reordering the rest.
      Matching the first element greedily is complete for subsequences. */
  predicate IsSubsequence<T(==)>(r: seq<T>, s: seq<T>)
    decreases |s|
  {
    if r == [] then true
    else if s == [] then false
    else if r[0] == s[0] then IsSubsequence(r[1..], s[1..])
    else IsSubsequence(r, s[1..])
  }

  /** No value occurs twice. */
  predicate NoDups<T(==)>(s: seq<T>) {
    forall i, j :: 0 <= i < j < |s| ==> s[i] != s[j]
  }

  /** `s.filter(keep)`: the elements that satisfy `keep`, in their original order. */
  function Filter<T>(s: seq<T>, keep: T -> bool): (r: seq<T>)
    ensures |r| <= |s|
    ensures forall i :: 0 <= i < |r| ==> keep(r[i])
  {
    if s == [] then []
    else
      var rest := Filter(s[1..], keep);
      if keep(s[0]) then [s[0]] + rest else rest
  }

  /** Filtering keeps each element that satisfies the predicate as often as it occurs,
      and no other element. */
  lemma {:induction false} FilterCounts<T(!new)>(s: seq<T>, keep: T -> bool)
    ensures forall x :: multiset(Filter(s, keep))[x] == if keep(x) then multiset(s)[x] else 0
    ensures forall x :: x in Filter(s, keep) <==> x in s && keep(x)
    decreases |s|
  {
    if s != [] {
      FilterCounts(s[1..], keep);
      assert s == [s[0]] + s[1..];
    }
  }

  /** Filtering deletes elements without reordering the rest. */
  lemma {:induction false} FilterIsSubsequence<T(!new)>(s: seq<T>, keep: T -> bool)
    ensures IsSubsequence(Filter(s, keep), s)
    decreases |s|
  {
    if s != [] {
      var rest := Filter(s[1..], keep);
      FilterIsSubsequence(s[1..], keep);
      if keep(s[0]) {
        assert ([s[0]] + rest)[1..] == rest;
      } else if rest != [] {
        assert keep(rest[0]);
      }
    }
  }

  /** Filtering distributes over concatenation. */
  lemma {:induction false} FilterAppend<T(!new)>(a: seq<T>, b: seq<T>, keep: T -> bool)
    ensures Filter(a + b, keep) == Filter(a, keep) + Filter(b, keep)
    decreases |a|
  {
    if a == [] {
      assert a + b == b;
    } else {
      assert (a + b)[1..] == a[1..] + b;
      assert (a + b)[0] == a[0];
      FilterAppend(a[1..], b, keep);
    }
  }

  /** Dropping the head keeps a sequence duplicate-free. */
  lemma NoDupsTail<T>(s: seq<T>)
    requires s != [] && NoDups(s)
    ensures NoDups(s[1..]) && s[0] !in s[1..]
  {
    forall i, j | 0 <= i < j < |s[1..]| ensures s[1..][i] != s[1..][j] {
      assert s[1..][i] == s[i + 1] && s[1..][j] == s[j + 1];
    }
  }

  /** Prepending a fresh value keeps a sequence duplicate-free. */
  lemma NoDupsCons<T>(x: T, s: seq<T>)
    requires x !in s && NoDups(s)
    ensures NoDups([x] + s)
  {
    var r := [x] + s;
    forall i, j | 0 <= i < j < |r| ensures r[i] != r[j] {
      if i == 0 { assert r[j] == s[j - 1]; } else { assert r[i] == s[i - 1] && r[j] == s[j - 1]; }
    }
  }

  /** Filtering keeps a duplicate-free sequence duplicate-free. */
  lemma {:induction false} FilterNoDups<T(!new)>(s: seq<T>, keep: T -> bool)
    requires NoDups(s)
    ensures NoDups(Filter(s, keep))
    decreases |s|
  {
    if s != [] {
      NoDupsTail(s);
      FilterNoDups(s[1..], keep);
      var rest := Filter(s[1..], keep);
      FilterCounts(s[1..], keep);
      if keep(s[0]) {
        assert s[0] !in rest;
        NoDupsCons(s[0], rest);
      }
    }
  }

  /** Filtering by a predicate and by its negation splits the list. */
  lemma {:induction false} FilterSplitsLength<T(!new)>(s: seq<T>, p: T -> bool, q: T -> bool)
    requires forall x :: q(x) == !p(x)
    ensures |Filter(s, p)| + |Filter(s, q)| == |s|
    decreases |s|
  {
    if s != [] {
      FilterSplitsLength(s[1..], p, q);
    }
  }

  /** Filtering with a predicate every element satisfies changes nothing. */
  lemma {:induction false} FilterKeepsAll<T(!new)>(s: seq<T>, keep: T -> bool)
    requires forall i :: 0 <= i < |s| ==> keep(s[i])
    ensures Filter(s, keep) == s
    decreases |s|
  {
    if s != [] {
      FilterKeepsAll(s[1..], keep);
    }
  }

  /** A filter keeps the whole sequence iff every element satisfies the predicate. */
  lemma {:induction false} FilterKeepsAllIff<T(!new)>(s: seq<T>, keep: T -> bool)
    ensures |Filter(s, keep)| == |s| <==> forall i :: 0 <= i < |s| ==> keep(s[i])
  {
    if forall i :: 0 <= i < |s| ==> keep(s[i]) {
      FilterKeepsAll(s, keep);
    } else {
      var i :| 0 <= i < |s| && !keep(s[i]);
      FilterDrops(s, keep, i);
    }
  }

  /** An element the predicate rejects makes the filtered list shorter. */
  lemma {:induction false} FilterDrops<T(!new)>(s: seq<T>, keep: T -> bool, i: nat)
    requires i < |s| && !keep(s[i])
    ensures |Filter(s, keep)| < |s|
    decreases i
  {
    var rest := Filter(s[1..], keep);
    if i == 0 {
      assert Filter(s, keep) == rest;
    } else {
      assert s[1..][i - 1] == s[i];
      FilterDrops(s[1..], keep, i - 1);
      assert |Filter(s, keep)| <= 1 + |rest|;
    }
  }

  /** Filtering distributes over a three-way concatenation. */
  lemma FilterAppend3<T(!new)>(a: seq<T>, b: seq<T>, c: seq<T>, keep: T -> bool)
    ensures Filter(a + b + c, keep) == Filter(a, keep) + Filter(b, keep) + Filter(c, keep)
  {
    FilterAppend(a + b, c, keep);
    FilterAppend(a, b, keep);
  }

  /** Filtering a one-element sequence. */
  lemma FilterSingleton<T(!new)>(x: T, keep: T -> bool)
    ensures Filter([x], keep) == if keep(x) then [x] else []
  {
    assert [x][1..] == [];
  }

  /** Filtering a sequence extended by one element. */
  lemma FilterSnoc<T(!new)>(s: seq<T>, x: T, keep: T -> bool)
    ensures Filter(s + [x], keep) == Filter(s, keep) + (if keep(x) then [x] else [])
  {
    FilterAppend(s, [x], keep);
    FilterSingleton(x, keep);
  }

  /** The positions of `s` whose element passes `keep`. */
  function PassingIndices<T>(s: seq<T>, keep: T -> bool): set<int> {
    set k | 0 <= k < |s| && keep(s[k])
  }

  /** The length of a filter is the number of positions that pass: an independent count. */
  lemma {:induction false} FilterLengthCounts<T(!new)>(s: seq<T>, keep: T -> bool)
    ensures |Filter(s, keep)| == |PassingIndices(s, keep)|
    decreases |s|
  {
    if s != [] {
      var init, x := s[..|s| - 1], s[|s| - 1];
      assert s == init + [x];
      FilterSnoc(init, x, keep);
      FilterLengthCounts(init, keep);
      PassingIndicesSnoc(init, x, keep);
    }
  }

  /** Extending `s` by `x` adds position `|s|` exactly when `x` passes. */
  lemma PassingIndicesSnoc<T>(s: seq<T>, x: T, keep: T -> bool)
    ensures PassingIndices(s + [x], keep) == PassingIndices(s, keep) + (if keep(x) then {|s|} else {})
    ensures |s| !in PassingIndices(s, keep)
  {
    var a, b := PassingIndices(s, keep), PassingIndices(s + [x], keep);
    forall k | k in b ensures k in a + (if keep(x) then {|s|} else {}) {
      if k < |s| { assert (s + [x])[k] == s[k]; }
    }
    forall k | k in a ensures k in b {
      assert (s + [x])[k] == s[k];
    }
  }

  /** Replacing element `k` is splicing a one-element sequence in at `k`. */
  lemma Splice<T>(s: seq<T>, k: nat, y: T)
    requires k < |s|
    ensures s[..k] + [y] + s[k + 1..] == s[k := y]
  {
  }
}

=== FILE: text.dfy ===
/** The string primitives the handlers use, restricted to ASCII: `toLowerCase`,
    `startsWith`, `indexOf`/`includes` and `split(" ")`. */
module Text {

  predicate IsUpper(c: char) {
    'A' <= c <= 'Z'
  }

  /** `toLowerCase` on one ASCII character. */
  function LowerChar(c: char): (r: char)
    ensures IsUpper(c) ==> r as int == c as int + 32
    ensures !IsUpper(c) ==> r == c
    ensures !IsUpper(r)
  {
    if IsUpper(c) then (c as int + 32) as char else c
  }

  /** `toLowerCase` on an ASCII string: the same length, each character lowered. */
  function Lower(s: string): (r: string)
    ensures |r| == |s|
    ensures forall i {:trigger r[i]} :: 0 <= i < |s| ==> r[i] == LowerChar(s[i])
  {
    seq(|s|, i requires 0 <= i < |s| => LowerChar(s[i]))
  }

  /** A string equals its lower-case form iff it has no upper-case letter. */
  lemma LowerFixedIff(s: string)
    ensures s == Lower(s) <==> forall i :: 0 <= i < |s| ==> !IsUpper(s[i])
  {
    if forall i :: 0 <= i < |s| ==> !IsUpper(s[i]) {
      assert forall i :: 0 <= i < |s| ==> Lower(s)[i] == s[i];
    } else {
      var i :| 0 <= i < |s| && IsUpper(s[i]);
      assert Lower(s)[i] != s[i];
    }
  }

  /** Lowering commutes with taking a slice. */
  lemma LowerSlice(s: string, i: int, j: int)
    requires 0 <= i <= j <= |s|
    ensures Lower(s)[i..j] == Lower(s[i..j])
  {
  }

  /** `p` occurs in `s` starting at index `i`. */
  predicate OccursAt(s: string, p: string, i: int) {
    0 <= i <= |s| && p <= s[i..]
  }

  /** `s.includes(p)`. */
  predicate Contains(s: string, p: string) {
    exists i :: 0 <= i <= |s| && OccursAt(s, p, i)
  }

  /** The search behind `s.indexOf(p)`, from index `from` onward. */
  function IndexOfFrom(s: string, p: string, from: nat): (r: int)
    requires from <= |s|
    ensures r == -1 <==> forall i :: from <= i <= |s| ==> !OccursAt(s, p, i)
    ensures r != -1 ==> from <= r <= |s| && OccursAt(s, p, r)
    ensures r != -1 ==> forall i :: from <= i < r ==> !OccursAt(s, p, i)
    decreases |s| - from
  {
    if p <= s[from..] then assert OccursAt(s, p, from); from
    else if from == |s| then -1
    else IndexOfFrom(s, p, from + 1)
  }

  /** `s.indexOf(p)`: the first index where `p` occurs, or -1 when it occurs nowhere. */
  function IndexOf(s: string, p: string): (r: int)
    ensures r == -1 <==> !Contains(s, p)
    ensures r != -1 ==> OccursAt(s, p, r) && forall i :: 0 <= i < r ==> !OccursAt(s, p, i)
  {
    IndexOfFrom(s, p, 0)
  }

  /** The index of the first space of `s`, or `|s|` if it has none. */
  function FirstSpace(s: string): (r: nat)
    ensures r <= |s|
    ensures r < |s| ==> s[r] == ' '
    ensures forall j :: 0 <= j < r ==> s[j] != ' '
  {
    FirstSpaceFrom(s, 0)
  }

  /** The index of the first space of `s` at or after `from`, or `|s|` if there is none. */
  function FirstSpaceFrom(s: string, from: nat): (r: nat)
    requires from <= |s|
    ensures from <= r <= |s|
    ensures r < |s| ==> s[r] == ' '
    ensures forall j :: from <= j < r ==> s[j] != ' '
    decreases |s| - from
  {
    if from == |s| || s[from] == ' ' then from else FirstSpaceFrom(s, from + 1)
  }

  /** `s.split(" ")`: the maximal space-free pieces between single spaces, so the
      result is never empty (`"".split(" ")` is `[""]`) and may hold empty words. */
  function Split(s: string): (r: seq<string>)
    ensures |r| >= 1
    ensures forall j :: 0 <= j < |r| ==> ' ' !in r[j]
    decreases |s|
  {
    if FirstSpace(s) == |s| then [s] else [s[..FirstSpace(s)]] + Split(s[FirstSpace(s) + 1..])
  }

  /** The first word of `s.split(" ")` runs up to the first space. */
  lemma SplitHead(s: string)
    ensures Split(s)[0] == s[..FirstSpace(s)]
  {
  }

  /** Past a space, `s.split(" ")` is the first word followed by the split of the rest. */
  lemma SplitStep(s: string, i: nat)
    requires i == FirstSpace(s) && i < |s|
    ensures Split(s) == [s[..i]] + Split(s[i + 1..])
  {
  }

  /** `ws.join(" ")`. */
  function Join(ws: seq<string>): string
    requires |ws| >= 1
  {
    if |ws| == 1 then ws[0] else ws[0] + " " + Join(ws[1..])
  }

  /** Splitting then joining with the same separator gives back the string. */
  lemma {:induction false} JoinSplit(s: string)
    ensures Join(Split(s)) == s
    decreases |s|
  {
    var i := FirstSpace(s);
    if i < |s| {
      var t := s[i + 1..];
      JoinSplit(t);
      SplitStep(s, i);
      JoinCons(s[..i], Split(t));
      AroundSpace(s, i);
    } else {
      SplitNoSpace(s);
    }
  }

  /** Without a space, `s.split(" ")` is `[s]`. */
  lemma SplitNoSpace(s: string)
    requires FirstSpace(s) == |s|
    ensures Split(s) == [s]
  {
  }

  /** A string cut around one of its spaces. */
  lemma AroundSpace(s: string, i: nat)
    requires i < |s| && s[i] == ' '
    ensures s == s[..i] + " " + s[i + 1..]
  {
    assert s[i..] == " " + s[i + 1..] by { assert s[i..][1..] == s[i + 1..]; }
    assert s == s[..i] + s[i..];
  }

  /** Joining puts one space after the first word. */
  lemma JoinCons(w: string, ws: seq<string>)
    requires |ws| >= 1
    ensures Join([w] + ws) == w + " " + Join(ws)
  {
    assert ([w] + ws)[1..] == ws;
  }

  /** Joining space-free words then splitting gives back the words. */
  lemma {:induction false} SplitJoin(ws: seq<string>)
    requires |ws| >= 1
    requires forall j :: 0 <= j < |ws| ==> ' ' !in ws[j]
    ensures Split(Join(ws)) == ws
    decreases |ws|
  {
    var s := Join(ws);
    if |ws| == 1 {
      FirstSpaceOfSpaceFree(ws[0]);
    } else {
      var rest := Join(ws[1..]);
      assert s == ws[0] + " " + rest;
      FirstSpaceOfWord(ws[0], rest);
      assert s[..|ws[0]|] == ws[0];
      assert s[|ws[0]| + 1..] == rest;
      SplitJoin(ws[1..]);
    }
  }

  /** A space-free string has its first space at its end. */
  lemma FirstSpaceOfSpaceFree(w: string)
    requires ' ' !in w
    ensures FirstSpace(w) == |w|
  {
  }

  /** In `w + " " + rest` with `w` space-free, the first space follows `w`. */
  lemma FirstSpaceOfWord(w: string, rest: string)
    requires ' ' !in w
    ensures FirstSpace(w + " " + rest) == |w|
  {
    var s := w + " " + rest;
    assert s[|w|] == ' ';
    assert forall j :: 0 <= j < |w| ==> s[j] == w[j];
  }

  /** `k` is where a space-separated word of `s` begins. */
  predicate WordStart(s: string, k: int) {
    0 <= k <= |s| && (k == 0 || s[k - 1] == ' ')
  }

  /** Some word of `ws` starts with `q`. */
  predicate SomeWordHasPrefix(ws: seq<string>, q: string) {
    exists j :: 0 <= j < |ws| && q <= ws[j]
  }

  /** `s` reads `q` from some word start onward. */
  predicate ReadsFromWordStart(s: string, q: string) {
    exists k :: 0 <= k <= |s| && WordStart(s, k) && q <= s[k..]
  }

  /** The first word starts with `q` iff `q` is space-free and `s` starts with it. */
  lemma FirstWordPrefix(s: string, q: string)
    ensures q <= s[..FirstSpace(s)] <==> (' ' !in q && q <= s)
  {
    var i := FirstSpace(s);
    if q <= s[..i] {
      assert forall j :: 0 <= j < |q| ==> q[j] == s[j] && s[j] != ' ';
    }
  }

  /** Past the first word, the word starts of `s` are those of the rest, shifted. */
  lemma WordStartShift(s: string, i: nat, k: int)
    requires i == FirstSpace(s) && i < |s|
    ensures WordStart(s, k) <==> k == 0 || (k > i && WordStart(s[i + 1..], k - i - 1))
  {
    if 0 < k <= i {
      assert s[k - 1] != ' ';
    } else if i + 1 < k <= |s| {
      assert s[i + 1..][k - i - 2] == s[k - 1];
    }
  }

  /** Some word of `s.split(" ")` starts with `q` iff `q` has no space and `s`
      reads `q` from some word start onward. */
  lemma SomeWordStartsWith(s: string, q: string)
    ensures SomeWordHasPrefix(Split(s), q) <==> (' ' !in q && ReadsFromWordStart(s, q))
  {
    if SomeWordHasPrefix(Split(s), q) {
      WordPrefixReadsFromWordStart(s, q);
    }
    if ' ' !in q && ReadsFromWordStart(s, q) {
      WordStartReadsWordPrefix(s, q);
    }
  }

  lemma {:induction false} WordPrefixReadsFromWordStart(s: string, q: string)
    requires SomeWordHasPrefix(Split(s), q)
    ensures ' ' !in q && ReadsFromWordStart(s, q)
    decreases |s|
  {
    var ws := Split(s);
    var j :| 0 <= j < |ws| && q <= ws[j];
    PrefixSpaceFree(ws[j], q);
    if j == 0 {
      SplitHead(s);
      FirstWordPrefix(s, q);
      assert WordStart(s, 0) && s[0..] == s;
    } else {
      LaterWordPrefix(s, j, q);
      WordPrefixReadsFromWordStart(s[FirstSpace(s) + 1..], q);
      ReadsPastFirstWord(s, FirstSpace(s), q);
    }
  }

  /** A prefix of a space-free word is space-free. */
  lemma PrefixSpaceFree(w: string, q: string)
    requires ' ' !in w && q <= w
    ensures ' ' !in q
  {
    assert forall c :: c in q ==> c in w;
  }

  /** A word other than the first is a word of the text after the first space. */
  lemma LaterWordPrefix(s: string, j: nat, q: string)
    requires 0 < j < |Split(s)| && q <= Split(s)[j]
    ensures FirstSpace(s) < |s| && SomeWordHasPrefix(Split(s[FirstSpace(s) + 1..]), q)
  {
    var i := FirstSpace(s);
    assert i < |s|;
    SplitStep(s, i);
    ConsTailHasPrefix(s[..i], Split(s[i + 1..]), Split(s), j, q);
  }

  /** A prefix found past the head of `[w] + wt` is found among `wt`. */
  lemma ConsTailHasPrefix(w: string, wt: seq<string>, ws: seq<string>, j: nat, q: string)
    requires ws == [w] + wt && 0 < j < |ws| && q <= ws[j]
    ensures SomeWordHasPrefix(wt, q)
  {
    assert wt[j - 1] == ws[j];
  }

  /** Reading `q` from a word start of the text after the first space is reading it from a
      word start of `s`. */
  lemma ReadsPastFirstWord(s: string, i: nat, q: string)
    requires i == FirstSpace(s) && i < |s|
    requires ReadsFromWordStart(s[i + 1..], q)
    ensures ReadsFromWordStart(s, q)
  {
    var t := s[i + 1..];
    var k' :| 0 <= k' <= |t| && WordStart(t, k') && q <= t[k'..];
    WordStartShift(s, i, k' + i + 1);
    assert s[k' + i + 1..] == t[k'..];
  }

  lemma {:induction false} WordStartReadsWordPrefix(s: string, q: string)
    requires ' ' !in q && ReadsFromWordStart(s, q)
    ensures SomeWordHasPrefix(Split(s), q)
    decreases |s|
  {
    var k :| 0 <= k <= |s| && WordStart(s, k) && q <= s[k..];
    if k == 0 {
      assert s[0..] == s;
      FirstWordHasPrefix(s, q);
    } else {
      ReadsAfterFirstWord(s, k, q);
      WordStartReadsWordPrefix(s[FirstSpace(s) + 1..], q);
      LaterWordHasPrefix(s, q);
    }
  }

  /** A space-free prefix of `s` is a prefix of its first word. */
  lemma FirstWordHasPrefix(s: string, q: string)
    requires ' ' !in q && q <= s
    ensures SomeWordHasPrefix(Split(s), q)
  {
    FirstWordPrefix(s, q);
    SplitHead(s);
    assert q <= Split(s)[0];
  }

  /** A word after the first space is a word of `s`. */
  lemma LaterWordHasPrefix(s: string, q: string)
    requires FirstSpace(s) < |s| && SomeWordHasPrefix(Split(s[FirstSpace(s) + 1..]), q)
    ensures SomeWordHasPrefix(Split(s), q)
  {
    var i := FirstSpace(s);
    SplitStep(s, i);
    ConsHasPrefix(s[..i], Split(s[i + 1..]), Split(s), q);
  }

  /** A prefix found among `wt` is still found once a word is put in front. */
  lemma ConsHasPrefix(w: string, wt: seq<string>, ws: seq<string>, q: string)
    requires ws == [w] + wt && SomeWordHasPrefix(wt, q)
    ensures SomeWordHasPrefix(ws, q)
  {
    var j :| 0 <= j < |wt| && q <= wt[j];
    assert ws[j + 1] == wt[j];
  }

  /** A word start other than the first lies past the first space, and reading `q` from it
      reads `q` from a word start of the text after that space. */
  lemma ReadsAfterFirstWord(s: string, k: nat, q: string)
    requires 0 < k <= |s| && WordStart(s, k) && q <= s[k..]
    ensures FirstSpace(s) < |s| && ReadsFromWordStart(s[FirstSpace(s) + 1..], q)
  {
    var i := FirstSpace(s);
    assert s[k - 1] == ' ';
    var t := s[i + 1..];
    WordStartShift(s, i, k);
    assert t[k - i - 1..] == s[k..];
  }

  /** Lowering keeps the first space where it is. */
  lemma FirstSpaceLower(s: string)
    ensures FirstSpace(Lower(s)) == FirstSpace(s)
  {
    var l := Lower(s);
    assert forall j :: 0 <= j < |s| ==> (l[j] == ' ' <==> s[j] == ' ');
  }

  /** Lowering a string lowers each of its words and keeps the word count. */
  lemma {:induction false} SplitLower(s: string)
    ensures |Split(Lower(s))| == |Split(s)|
    ensures forall j :: 0 <= j < |Split(s)| ==> Split(Lower(s))[j] == Lower(Split(s)[j])
    decreases |s|
  {
    var i := FirstSpace(s);
    var l := Lower(s);
    FirstSpaceLower(s);
    if i < |s| {
      LowerSlice(s, 0, i);
      LowerSlice(s, i + 1, |s|);
      SplitLower(s[i + 1..]);
      var ws, wl := Split(s), Split(l);
      assert l[i + 1..] == Lower(s[i + 1..]);
      assert ws == [s[..i]] + Split(s[i + 1..]);
      assert wl == [l[..i]] + Split(l[i + 1..]);
      forall j | 0 <= j < |ws| ensures wl[j] == Lower(ws[j]) {
        if j > 0 {
          assert wl[j] == Split(l[i + 1..])[j - 1];
          assert ws[j] == Split(s[i + 1..])[j - 1];
        }
      }
    }
  }

  /** Word starts do not move under lowering. */
  lemma WordStartLower(s: string, k: int)
    ensures WordStart(Lower(s), k) <==> WordStart(s, k)
  {
  }
}

=== FILE: tictactoe.dfy ===
/** The tic-tac-toe engine: the winner check, the move rule of `Board.handleClick`,
    the status line, and the move history kept by `Game.handlePlay`. */
module TicTacToe {
  import opened Wrappers

  datatype Mark = X | O

  /** Nine squares in row-major order; `None` is an empty square (`null`). */
  type Board = seq<Option<Mark>>

  /** `Array(9).fill(null)`. */
  const EmptyBoard: Board := seq(9, _ => None)

  /** The eight winning lines, in the order the winner check tries them. */
  const Lines: seq<(nat, nat, nat)> :=
    [(0, 1, 2), (3, 4, 5), (6, 7, 8), (0, 3, 6), (1, 4, 7), (2, 5, 8), (0, 4, 8), (2, 4, 6)]

  /** Line `l` holds three equal marks. */
  predicate Complete(squares: Board, l: nat)
    requires |squares| == 9 && l < |Lines|
  {
    var (a, b, c) := Lines[l];
    squares[a].Some? && squares[a] == squares[b] && squares[a] == squares[c]
  }

  /** The mark on the first square of line `l`. */
  function Owner(squares: Board, l: nat): Option<Mark>
    requires |squares| == 9 && l < |Lines|
  {
    squares[Lines[l].0]
  }

  /** The winner check from line `from` onward. */
  function WinnerFrom(squares: Board, from: nat): (r: Option<Mark>)
    requires |squares| == 9 && from <= |Lines|
    ensures r.None? <==> forall l :: from <= l < |Lines| ==> !Complete(squares, l)
    ensures r.Some? ==> exists l :: (from <= l < |Lines| && Complete(squares, l) && r == Owner(squares, l)
                                     && forall l' :: from <= l' < l ==> !Complete(squares, l'))
    decreases |Lines| - from
  {
    if from == |Lines| then None
    else if Complete(squares, from) then Owner(squares, from)
    else WinnerFrom(squares, from + 1)
  }

  /** `calculateWinner`: the mark filling the first complete line, or `None` when no
      line holds three equal marks. */
  function CalculateWinner(squares: Board): (r: Option<Mark>)
    requires |squares| == 9
    ensures r.None? <==> forall l :: 0 <= l < |Lines| ==> !Complete(squares, l)
    ensures r.Some? ==> exists l :: (0 <= l < |Lines| && Complete(squares, l)
                                     && squares[Lines[l].0] == squares[Lines[l].1] == squares[Lines[l].2] == r
                                     && forall l' :: 0 <= l' < l ==> !Complete(squares, l'))
  {
    WinnerFrom(squares, 0)
  }

  /** The mark the player to move places. */
  function Player(xIsNext: bool): Mark {
    if xIsNext then X else O
  }

  /** `Board.handleClick(i)`: `None` when the click is ignored (square `i` is filled or the
      game is already won), otherwise the board passed to `onPlay`. */
  function HandleClick(squares: Board, xIsNext: bool, i: nat): (r: Option<Board>)
    requires |squares| == 9 && i < 9
    ensures r.None? <==> squares[i].Some? || CalculateWinner(squares).Some?
    ensures r.Some? ==> |r.value| == 9 && r.value[i] == Some(Player(xIsNext))
    ensures r.Some? ==> forall j :: 0 <= j < 9 && j != i ==> r.value[j] == squares[j]
  {
    if squares[i].Some? || CalculateWinner(squares).Some? then None
    else Some(squares[i := Some(Player(xIsNext))])
  }

  function MarkText(m: Mark): string {
    match m
    case X => "X"
    case O => "O"
  }

  /** The status line Board renders above the squares. */
  function Status(squares: Board, xIsNext: bool): (r: string)
    requires |squares| == 9
    ensures "Winner: " <= r <==> CalculateWinner(squares).Some?
    ensures "Next player: " <= r <==> CalculateWinner(squares).None?
    ensures CalculateWinner(squares).Some? ==> r[|r| - 1..] == MarkText(CalculateWinner(squares).value)
    ensures CalculateWinner(squares).None? ==> r[|r| - 1..] == MarkText(Player(xIsNext))
    ensures |r| == (if CalculateWinner(squares).Some? then |"Winner: "| else |"Next player: "|) + 1
  {
    match CalculateWinner(squares)
    case Some(w) => "Winner: " + MarkText(w)
    case None =>
      var r := "Next player: " + MarkText(Player(xIsNext));
      assert r[0] == 'N';
      r
  }

  /** The status line tells the outcome apart: who won, or, with no winner, whose turn it is. */
  lemma StatusDeterminesOutcome(a: Board, xa: bool, b: Board, xb: bool)
    requires |a| == 9 && |b| == 9
    requires Status(a, xa) == Status(b, xb)
    ensures CalculateWinner(a) == CalculateWinner(b)
    ensures CalculateWinner(a).None? ==> xa == xb
  {
    var wa, wb, r := CalculateWinner(a), CalculateWinner(b), Status(a, xa);
    if wa.Some? {
      assert "Winner: " <= r;
      MarkTextInjective(wa.value, wb.value);
    } else {
      assert "Next player: " <= r;
      MarkTextInjective(Player(xa), Player(xb));
    }
  }

  /** Distinct marks are written differently. */
  lemma MarkTextInjective(m: Mark, n: Mark)
    requires MarkText(m) == MarkText(n)
    ensures m == n
  {
  }

  /** The state of `Game`: every board so far and the move being viewed. */
  datatype Game = Game(history: seq<Board>, currentMove: nat)

  const InitialGame: Game := Game([EmptyBoard], 0)

  /** The state invariant `Game` keeps: the viewed move exists and every board has nine squares. */
  predicate Valid(g: Game) {
    && |g.history| >= 1
    && g.currentMove < |g.history|
    && forall k :: 0 <= k < |g.history| ==> |g.history[k]| == 9
  }

  /** `xIsNext` is derived from the parity of the viewed move. */
  function XIsNext(g: Game): bool {
    g.currentMove % 2 == 0
  }

  /** `Game.handlePlay(nextSquares)`: drop the boards after the viewed move (`slice` clamps
      at the end of the history), append the new board and view it. */
  function HandlePlay(g: Game, nextSquares: Board): (r: Game)
    ensures r.currentMove == |r.history| - 1 && r.history[r.currentMove] == nextSquares
    ensures |r.history| == (if g.currentMove < |g.history| then g.currentMove + 1 else |g.history|) + 1
    ensures forall k :: 0 <= k < |r.history| - 1 ==> k <= g.currentMove && r.history[k] == g.history[k]
    ensures g.currentMove < |g.history| ==> r.currentMove == g.currentMove + 1 && XIsNext(r) == !XIsNext(g)
  {
    var kept := if g.currentMove + 1 <= |g.history| then g.currentMove + 1 else |g.history|;
    var nextHistory := g.history[..kept] + [nextSquares];
    Game(nextHistory, |nextHistory| - 1)
  }

  /** A click on square `i` of the viewed board: Board's move rule feeding `handlePlay`. */
  function Play(g: Game, i: nat): (r: Game)
    requires g.currentMove < |g.history| && |g.history[g.currentMove]| == 9 && i < 9
    ensures var b := g.history[g.currentMove];
      b[i].Some? || CalculateWinner(b).Some? ==> r == g
    ensures var b := g.history[g.currentMove];
      b[i].None? && CalculateWinner(b).None? ==>
        && r.currentMove == g.currentMove + 1 == |r.history| - 1
        && r.history[..r.currentMove] == g.history[..r.currentMove]
        && r.history[r.currentMove] == b[i := Some(Player(XIsNext(g)))]
  {
    match HandleClick(g.history[g.currentMove], XIsNext(g), i)
    case None => g
    case Some(next) => HandlePlay(g, next)
  }

  /** Playing keeps the state invariant. */
  lemma PlayValid(g: Game, i: nat)
    requires Valid(g) && i < 9
    ensures Valid(Play(g, i))
  {
  }

  /** The number of squares holding `m`. */
  function Count(b: Board, m: Mark): (r: nat)
    ensures r <= |b|
  {
    if b == [] then 0 else (if b[0] == Some(m) then 1 else 0) + Count(b[1..], m)
  }

  /** Marking an empty square adds one to that mark's count and leaves the other's alone. */
  lemma {:induction false} CountMark(b: Board, i: nat, m: Mark, m': Mark)
    requires i < |b| && b[i].None?
    ensures Count(b[i := Some(m)], m') == Count(b, m') + (if m == m' then 1 else 0)
    decreases |b|
  {
    if i > 0 {
      assert b[i := Some(m)][1..] == b[1..][i - 1 := Some(m)];
      CountMark(b[1..], i - 1, m, m');
    } else {
      assert b[i := Some(m)][1..] == b[1..];
    }
  }

  /** Board `k` of a history played from the empty board holds `(k + 1) / 2` X marks and
      `k / 2` O marks, since X moves first and the players alternate. */
  predicate TurnsAlternate(g: Game) {
    forall k :: 0 <= k < |g.history| ==>
      Count(g.history[k], X) == (k + 1) / 2 && Count(g.history[k], O) == k / 2
  }

  lemma InitialGameAlternates()
    ensures Valid(InitialGame) && TurnsAlternate(InitialGame)
  {
    assert Count(EmptyBoard, X) == 0 by { EmptyCount(EmptyBoard, X); }
    assert Count(EmptyBoard, O) == 0 by { EmptyCount(EmptyBoard, O); }
  }

  lemma {:induction false} EmptyCount(b: Board, m: Mark)
    requires forall j :: 0 <= j < |b| ==> b[j].None?
    ensures Count(b, m) == 0
    decreases |b|
  {
    if b != [] {
      EmptyCount(b[1..], m);
    }
  }

  /** Every accepted click keeps the players alternating, so `xIsNext` (the parity of the
      viewed move) holds exactly when the viewed board has as many X marks as O marks. */
  lemma PlayAlternates(g: Game, i: nat)
    requires Valid(g) && TurnsAlternate(g) && i < 9
    ensures Valid(Play(g, i)) && TurnsAlternate(Play(g, i))
    ensures XIsNext(g) <==> Count(g.history[g.currentMove], X) == Count(g.history[g.currentMove], O)
  {
    var cm := g.currentMove;
    var sq := g.history[cm];
    match HandleClick(sq, XIsNext(g), i)
    case None =>
    case Some(next) =>
      var r := HandlePlay(g, next);
      assert next == sq[i := Some(Player(XIsNext(g)))];
      CountMark(sq, i, Player(XIsNext(g)), X);
      CountMark(sq, i, Player(XIsNext(g)), O);
      forall k | 0 <= k < |r.history|
        ensures Count(r.history[k], X) == (k + 1) / 2 && Count(r.history[k], O) == k / 2
      {
        if k < |r.history| - 1 {
          assert r.history[k] == g.history[k];
        }
      }
  }
}

=== FILE: travel_plan.dfy ===
/** `TravelPlan.handleComplete`: the plan is a flat table from place id to place, each
    place listing the ids of its children. */
module TravelPlan {
  import opened Wrappers
  import opened Seqs

  datatype Place = Place(id: int, title: string, childIds: seq<int>)

  type Plan = map<int, Place>

  /** `plan[parentId]` is `undefined`, so reading its `childIds` throws a `TypeError`. */
  datatype PlanError = MissingParent(parentId: int)

  predicate Differs(childId: int, id: int) { id != childId }

  /** `handleComplete(parentId, childId)`: the parent's child list loses every occurrence of
      `childId` and keeps the order of the rest; every other entry of the plan, and the
      parent's own id and title, stay. The completed child's own entry is not deleted. */
  function HandleComplete(plan: Plan, parentId: int, childId: int): (r: Result<Plan, PlanError>)
    ensures r.Failure? <==> parentId !in plan
    ensures r.Failure? ==> r.error == MissingParent(parentId)
    ensures r.Success? ==> r.value.Keys == plan.Keys
    ensures r.Success? ==> forall k :: k in plan && k != parentId ==> r.value[k] == plan[k]
    ensures r.Success? ==> var p, p' := plan[parentId], r.value[parentId];
      && p'.id == p.id && p'.title == p.title
      && childId !in p'.childIds
      && IsSubsequence(p'.childIds, p.childIds)
      && forall c :: c != childId ==> multiset(p'.childIds)[c] == multiset(p.childIds)[c]
  {
    if parentId !in plan then Failure(MissingParent(parentId))
    else
      var parent := plan[parentId];
      var nextParent := parent.(childIds := Filter(parent.childIds, id => Differs(childId, id)));
      FilterCounts(parent.childIds, id => Differs(childId, id));
      FilterIsSubsequence(parent.childIds, id => Differs(childId, id));
      Success(plan[parentId := nextParent])
  }

  /** Completing the same child twice has the same effect as completing it once. */
  lemma CompleteIdempotent(plan: Plan, parentId: int, childId: int)
    requires parentId in plan
    ensures HandleComplete(HandleComplete(plan, parentId, childId).value, parentId, childId)
         == HandleComplete(plan, parentId, childId)
  {
    var once := HandleComplete(plan, parentId, childId).value;
    var kids := once[parentId].childIds;
    FilterKeepsAll(kids, id => Differs(childId, id));
    assert once[parentId := once[parentId]] == once;
  }
}

=== FILE: update_queue.dfy ===
/** `getFinalState`: how a queue of state updates folds over a base state. An entry is
    either a plain value, which replaces the state, or an updater function; the fold
    does not call the function it finds but always applies `increment` (`n => n + 1`). */
module UpdateQueue {
  import opened Wrappers

  datatype Update = Replace(value: int) | Updater

  /** One iteration of the loop in `getFinalState`. */
  function Step(state: int, u: Update): int {
    match u
    case Replace(n) => n
    case Updater => state + 1
  }

  /** The state after folding `queue` over `base` from left to right. */
  function FinalState(base: int, queue: seq<Update>): int
    decreases |queue|
  {
    if queue == [] then base
    else Step(FinalState(base, queue[..|queue| - 1]), queue[|queue| - 1])
  }

  /** The index of the last replacement in the queue, if there is one. */
  function LastReplace(queue: seq<Update>): (r: Option<nat>)
    ensures r.None? ==> forall k :: 0 <= k < |queue| ==> queue[k].Updater?
    ensures r.Some? ==> r.value < |queue| && queue[r.value].Replace?
    ensures r.Some? ==> forall k :: r.value < k < |queue| ==> queue[k].Updater?
    decreases |queue|
  {
    if queue == [] then None
    else if queue[|queue| - 1].Replace? then Some(|queue| - 1)
    else LastReplace(queue[..|queue| - 1])
  }

  /** The final state read off the queue directly: the last replacement plus one for each
      updater after it, or the base state plus one per entry when nothing replaces it. */
  function ClosedForm(base: int, queue: seq<Update>): int {
    match LastReplace(queue)
    case None => base + |queue|
    case Some(j) => queue[j].value + (|queue| - 1 - j)
  }

  /** The fold agrees with the closed form. */
  lemma {:induction false} FinalStateClosedForm(base: int, queue: seq<Update>)
    ensures FinalState(base, queue) == ClosedForm(base, queue)
    decreases |queue|
  {
    if queue != [] {
      FinalStateClosedForm(base, queue[..|queue| - 1]);
    }
  }

  /** Folding a concatenation folds the second part over the result of the first. */
  lemma {:induction false} FinalStateAppend(base: int, p: seq<Update>, s: seq<Update>)
    ensures FinalState(base, p + s) == FinalState(FinalState(base, p), s)
    decreases |s|
  {
    if s == [] {
      assert p + s == p;
    } else {
      assert (p + s)[..|p + s| - 1] == p + s[..|s| - 1];
      FinalStateAppend(base, p, s[..|s| - 1]);
    }
  }

  /** Everything before a replacement, the base state included, is forgotten. */
  lemma ReplaceForgetsPrefix(base: int, base': int, p: seq<Update>, n: int, s: seq<Update>)
    ensures FinalState(base, p + [Replace(n)] + s) == FinalState(base', [Replace(n)] + s)
  {
    FinalStateAppend(base, p + [Replace(n)], s);
    FinalStateAppend(base', [Replace(n)], s);
    assert (p + [Replace(n)])[..|p|] == p;
    assert [Replace(n)][..0] == [];
  }

  /** `getFinalState(baseState, queue)`, as the `for…of` loop of `getFinalState`, one `Step` per entry. */
  method GetFinalState(baseState: int, queue: seq<Update>) returns (finalState: int)
    ensures finalState == FinalState(baseState, queue)
    ensures finalState == ClosedForm(baseState, queue)
  {
    finalState := baseState;
    var k := 0;
    while k < |queue|
      invariant 0 <= k <= |queue|
      invariant finalState == FinalState(baseState, queue[..k])
    {
      assert queue[..k + 1][..k] == queue[..k];
      match queue[k] {
        case Updater => finalState := finalState + 1;
        case Replace(n) => finalState := n;
      }
      k := k + 1;
    }
    assert queue[..k] == queue;
    FinalStateClosedForm(baseState, queue);
  }

  /** The expected values of the four test cases rendered by `AppOne`. */
  lemma AppOneTestCases()
    ensures FinalState(0, [Replace(1), Replace(1), Replace(1)]) == 1
    ensures FinalState(0, [Updater, Updater, Updater]) == 3
    ensures FinalState(0, [Replace(5), Updater]) == 6
    ensures FinalState(0, [Replace(5), Updater, Replace(42)]) == 42
  {
    FinalStateClosedForm(0, [Updater, Updater, Updater]);
  }
}

=== FILE: username.dfy ===
/** `UsernameForm`: a controlled input whose error is shown only once the field has been
    touched (blurred or submitted). */
module UsernameForm {
  import opened Wrappers
  import Text

  datatype FormState = FormState(username: string, touched: bool)

  /** The state of a fresh form. */
  function Init(initialUsername: string): FormState {
    FormState(initialUsername, false)
  }

  /** `username === username.toLowerCase()`. */
  predicate IsLowerCase(username: string) {
    username == Text.Lower(username)
  }

  predicate IsLongEnough(username: string) { |username| >= 3 }
  predicate IsShortEnough(username: string) { |username| <= 10 }

  /** `formIsValid`: lower case and between 3 and 10 characters long, that is, 3 to 10
      characters none of which is an upper-case letter. */
  function FormIsValid(username: string): (r: bool)
    ensures r <==> 3 <= |username| <= 10 && forall i :: 0 <= i < |username| ==> !Text.IsUpper(username[i])
  {
    Text.LowerFixedIff(username);
    IsShortEnough(username) && IsLongEnough(username) && IsLowerCase(username)
  }

  const LowerCaseMessage: string := "Username must be lower case"
  const TooShortMessage: string := "Username must be at least 3 characters long"
  const TooLongMessage: string := "Username must be no longer than 10 characters"

  /** `errorMessage`: the first failed check, in the order lower case, long enough, short
      enough; no message for a valid username. */
  function ErrorMessage(username: string): (r: Option<string>)
    ensures r.None? <==> FormIsValid(username)
    ensures r == Some(LowerCaseMessage) <==> !IsLowerCase(username)
    ensures r == Some(TooShortMessage) <==> IsLowerCase(username) && !IsLongEnough(username)
    ensures r == Some(TooLongMessage) <==> IsLowerCase(username) && IsLongEnough(username) && !IsShortEnough(username)
  {
    if !IsLowerCase(username) then Some(LowerCaseMessage)
    else if !IsLongEnough(username) then Some(TooShortMessage)
    else if !IsShortEnough(username) then Some(TooLongMessage)
    else None
  }

  /** `displayErrorMessage`: the field has been touched and some check fails, which is
      exactly when there is an error message to show. */
  function DisplayErrorMessage(s: FormState): (r: bool)
    ensures r <==> s.touched && ErrorMessage(s.username).Some?
  {
    s.touched && !FormIsValid(s.username)
  }

  /** The alert text rendered for a state, if any. */
  function Alert(s: FormState): (r: Option<string>)
    ensures r.Some? <==> s.touched && ErrorMessage(s.username).Some?
    ensures r == if s.touched then ErrorMessage(s.username) else None
  {
    if DisplayErrorMessage(s) then ErrorMessage(s.username) else None
  }

  /** `handleChange`: the typed value becomes the username; once the field is touched the
      alert follows every keystroke. */
  function HandleChange(s: FormState, value: string): (r: FormState)
    ensures r.username == value && r.touched == s.touched
    ensures Alert(r) == if s.touched then ErrorMessage(value) else None
  {
    s.(username := value)
  }

  /** `handleBlur`: leaving the field marks it touched. */
  function HandleBlur(s: FormState): (r: FormState)
    ensures r.username == s.username && r.touched
  {
    s.(touched := true)
  }

  /** `handleSubmit`: marks the field touched and hands the username to `onSubmitUsername`
      only when the form is valid; the second component is that call's argument. */
  function HandleSubmit(s: FormState): (r: (FormState, Option<string>))
    ensures r.0.username == s.username && r.0.touched
    ensures r.1.Some? <==> FormIsValid(s.username)
    ensures r.1.Some? ==> r.1.value == s.username
  {
    (s.(touched := true), if FormIsValid(s.username) then Some(s.username) else None)
  }

  /** A fresh form shows no alert, whatever its initial username. */
  lemma FreshFormSilent(initialUsername: string)
    ensures Alert(Init(initialUsername)).None?
  {
  }

  /** After a submit exactly one thing happens: the username is submitted, or an alert is
      shown. */
  lemma SubmitOrAlert(s: FormState)
    ensures var (t, sent) := HandleSubmit(s); sent.Some? <==> Alert(t).None?
  {
  }

  /** The input's `pattern="[a-z]{3,10}"` accepts only valid usernames. */
  predicate MatchesPattern(username: string) {
    3 <= |username| <= 10 && forall i :: 0 <= i < |username| ==> 'a' <= username[i] <= 'z'
  }

  lemma PatternImpliesValid(username: string)
    requires MatchesPattern(username)
    ensures FormIsValid(username)
  {
  }

  /** The converse fails: `formIsValid` accepts digits and punctuation that the pattern
      rejects. The form is `noValidate`, so the pattern is not enforced. */
  lemma ValidNotImpliesPattern()
    ensures FormIsValid("ab1") && !MatchesPattern("ab1")
  {
    var u := "ab1";
    assert FormIsValid(u);
    assert |u| == 3 && u[2] == '1';
  }
}

=== FILE: wrappers.dfy ===
/** Option and Result types shared by the model. */
module Wrappers {

  /** A value that may be absent: JavaScript's `null` in the modelled code. */
  datatype Option<+T> = None | Some(value: T)

  /** The outcome of an operation that can throw: `Failure` stands for a thrown `Error`. */
  datatype Result<+R, +E> = Success(value: R) | Failure(error: E)
}
